=== FILE: README.md ===
# A Dafny model of the opportunities/metrics merge

`merge_no_api.py` joins a Salesforce opportunities export with a Tubular
channel-metrics export. It can also use a channel map from account name to
channel id. This project models two parts of that script:

- `parse_colmap`, which reads the `--metrics-cols` argument;
- the body of `main()` from the channel-column lookup to the final column reorder.

Every `SystemExit` of that code becomes an `Err` carrying its exact message. The
tables are abstract: a column list plus rows that map column names to optional
string cells (`None` is pandas' missing value).

Files, one module each:

- `wrappers.dfy`: `Option` and `Result`.
- `seqs.dfy` (`Seqs`): column lists. Covers distinctness, positions, and the two
  list comprehensions of the reorder (`Keep`, `Drop`) with their order lemmas.
- `text.dfy` (`Text`): the Python string operations `parse_colmap` relies on.
  - `str.split(sep)` is `Split`, proved to undo `Join`.
  - `str.split(sep, 1)` is `SplitOnce`.
  - `str.strip()` is `Strip`. It is characterised without reference to its
    algorithm by `IsStripOf`: a slice bordered only by whitespace that neither
    starts nor ends with whitespace. Whitespace is the set for which Python's
    `str.isspace()` holds.
- `colmap.dfy` (`ColMap`): `parse_colmap` and the dict it builds.
  - The dict is modelled as a Python dict (`Dict`): keys in first-insertion
    order, each holding its last assigned value.
  - `Invert` builds the rename map `{v: k for k, v in colmap.items()}` in that
    iteration order. When two expected names share a source header, the one
    iterated last wins.
- `tables.dfy` (`Tables`): tables and the column operations.
  - `FirstPresent` is the priority lookup of a column.
  - `Rename` is `df.rename(columns=...)`.
  - `PadColumns` is `df[c] = None` for each missing column.
  - `Select` is `df[cols]`.
- `join.dfy` (`Join`): the left join. It covers the general case (several
  matches repeat a left row) and the unique-right-key case the merge relies on.
- `reorder.dfy` (`ColumnOrder`): the final reorder
  `[c for c in preferred if c in cols] + [c for c in cols if c not in preferred]`.
- `merge.dfy` (`Merge`): `main()` lines 58-110, in two stages.
  - Every check that can end the program looks only at column names and the
    `--metrics-cols` text, never at rows.
    `MakePlan` makes these checks on the three headers and the
    `--metrics-cols` text, in the program's order: the channel column, else the
    map fallback's three checks, then `parse_colmap`, then `channel_id` in the
    renamed metrics header.
  - `Run` carries out the successful plan on the rows: the map join, the
    metrics rename and padding, the metrics join and the reorder.
  - `Merge` composes the two stages.

The error message for a pair without a colon reads "Use old:new". The parser
does the reverse: it reads `new, old = pair.split(":", 1)` and the `--help` text
says `new:old`. The model keeps the message exactly as written
(`ColMap.BadPairMessage`).

## Model

| member | source | states |
|---|---|---|
| `ColMap.ParseColmap` | merge_no_api.py:35-45 | The parse fails exactly when some non-blank fragment lacks a colon. The error is the message naming the FIRST such fragment. On success the result is a well-formed dict. |
| `ColMap.PairTexts` | merge_no_api.py:39 | The pair texts are non-empty strings. Every fragment that is not blank once stripped is among them, stripped, and every pair text is the strip of some fragment. |
| `ColMap.PairTextsOne` | merge_no_api.py:39 | A comma-free argument has its strip as its one pair text, or no pair text when it is blank. |
| `ColMap.PairTextsComma` | merge_no_api.py:39 | The pair texts of `a,b` are those of `a` followed by those of `b`. With `PairTextsOne` this fixes them exactly: the non-blank fragments, stripped, once each, in argument order. |
| `ColMap.PairTextsOrder` | merge_no_api.py:39 | Two fragments that are not blank appear among the pair texts in their argument order. |
| `ColMap.NonEmpty` | merge_no_api.py:39 | The `if p.strip()` filter keeps no empty string and nothing that was not in its input, and it keeps every non-empty string. |
| `ColMap.NonEmptyConcat` | merge_no_api.py:39 | Filtering a concatenation is concatenating the filtered parts. So the filter decides element by element and keeps the order. |
| `ColMap.NonEmptyOrder` | merge_no_api.py:39 | Two non-empty strings keep their relative order through the filter. |
| `ColMap.ParsePairs` | merge_no_api.py:40-42 | The loop fails exactly when some pair text has no colon, with the message naming the FIRST such text. Otherwise it yields one pair per text, in order, each being the text cut at its first colon with both sides stripped. |
| `ColMap.BlankColmap` | merge_no_api.py:36-39 | An argument made only of whitespace and commas, the empty string included, parses to the empty dict without error. |
| `ColMap.ColmapIsDictOfPairs` | merge_no_api.py:39-45 | A successful parse is the dict obtained by assigning the fragments' pairs one after the other, in argument order. |
| `ColMap.ColmapLastPairWins` | merge_no_api.py:40-44 | On success the dict's keys are exactly the expected names of the pairs. Each holds the source header of the LAST pair naming it, so a later duplicate overwrites an earlier one. |
| `ColMap.ColmapOrder` | merge_no_api.py:40-44 | On success the dict iterates its keys in the order in which the names first occur among the pairs. A later duplicate does not move a key. |
| `ColMap.PairTextsShape` | merge_no_api.py:39 | Every pair text is non-empty, contains no comma, and is already stripped. |
| `ColMap.ParsePair` | merge_no_api.py:41-44 | A fragment is an error exactly when it has no colon, and the error message contains the fragment. Otherwise the result is the fragment cut at its first colon, both sides stripped. |
| `ColMap.ColonInSource` | merge_no_api.py:43-44 | Only the first colon separates: in `expected:source` with a colon-free expected name, the source header keeps its own colons. |
| `ColMap.Put` | merge_no_api.py:44 | `mapping[k] = v` maps `k` to `v` and leaves every other key's value unchanged. A new key goes to the end of the iteration order; an existing key keeps its place. The result is still a well-formed dict. |
| `ColMap.FromPairs` | merge_no_api.py:40-44 | Assigning the pairs one after the other always yields a well-formed dict: its iteration order lists each key once and lists exactly the keys. `FromPairsEntries` and `FromPairsOrder` give its contents. |
| `ColMap.FromPairsEntries` | merge_no_api.py:40-44 | Assigning pairs in order yields a dict whose keys are the expected names, each mapped to the source of the last pair naming it. |
| `ColMap.FromPairsOrder` | merge_no_api.py:40-44 | Assigning pairs in order yields a dict whose key order is the order of first occurrence. |
| `ColMap.Invert` | merge_no_api.py:87 | The keys of `{v: k for k, v in colmap.items()}` are exactly the dict's values. `InvertSpec` states which name each is sent to. |
| `ColMap.InvertSpec` | merge_no_api.py:87 | A header is a key of the rename map exactly when some expected name has it as its source. It is renamed to the expected name iterated last among those naming it. |
| `Text.StripSpec` | merge_no_api.py:39 | `Strip` returns a slice bordered only by whitespace that neither starts nor ends with whitespace. |
| `Text.StripIsUnique` | merge_no_api.py:39 | Any slice with that description is the one `Strip` returns, so the description determines `str.strip()`. |
| `Text.StripIdempotent` | merge_no_api.py:44 | Stripping a stripped string changes nothing. |
| `Text.StripKeepsChars` | merge_no_api.py:39 | Stripping only removes characters: every character of the result occurs in the input. |
| `Text.Split` | merge_no_api.py:39 | `str.split(",")` returns at least one piece, none containing the separator, and the pieces join back to the input. |
| `Text.SplitJoin` | merge_no_api.py:39 | Splitting undoes joining: separator-free pieces joined with the separator split back into the same pieces. |
| `Text.SplitAt` | merge_no_api.py:39 | `str.split(",")` of a text with a comma is the split of the part before that comma followed by the split of the part after it. |
| `Text.SplitOnce` | merge_no_api.py:41-43 | `pair.split(":", 1)` guarded by `":" in pair`: nothing exactly when there is no colon. Otherwise it returns a colon-free head and a tail, with head + colon + tail == the input. |
| `Tables.FirstPresent` | merge_no_api.py:59-63 | The priority lookup returns nothing exactly when no candidate is a column. Otherwise it returns a candidate that is a column, with no earlier candidate being one. |
| `Tables.FirstPresentIsFirst` | merge_no_api.py:71-75 | The priority lookup agrees with an independent description both ways: it finds `c` iff `c` is the first present candidate, and nothing iff no candidate is present. |
| `Merge.ResolveChannel` | merge_no_api.py:59-79 | If any channel candidate is a column, the result is the first such candidate, used directly. If none is, the checks run in order: no map is an error, then a map without `account_name` or `channel_id` is an error, then no account candidate is an error. Each error carries its own message. Success through the map names the first present account candidate. It fails only when no channel candidate is a column and one of the three map checks fails, so it succeeds whenever those checks pass. |
| `Merge.RenamedHeader` | merge_no_api.py:86-87 | The renamed metrics header has one name per metrics column. A column that is no expected name's source header keeps its name. |
| `Merge.RenamedHeaderSpec` | merge_no_api.py:86-87 | After the `if colmap:` rename, each metrics header is the expected name whose source it is (the last iterated, on a tie). Any other header keeps its name. The guard itself changes nothing. |
| `Merge.ChannelIdViaColmap` | merge_no_api.py:86-93 | Suppose the dict maps `channel_id` to a metrics header and no other expected name shares that header. Then the renamed metrics header passes the `channel_id` check. |
| `Merge.MakePlan` | merge_no_api.py:59-93 | The checks run in the program's order. A channel or map failure comes first, then a `parse_colmap` failure, then a renamed metrics header without `channel_id`. It fails only through one of these checks, so the plan succeeds whenever all of them pass. Success yields the resolved channel source and the parsed dict, and guarantees the columns the row stage needs. |
| `Tables.Rename` | merge_no_api.py:87 | `rename(columns=...)` keeps every column's position and cells under its new name. The result is well formed when the new names are distinct. |
| `Tables.RenameNothing` | merge_no_api.py:86-87 | Renaming with the empty map leaves the table unchanged. |
| `Merge.RenameMetrics` | merge_no_api.py:86-87 | The renamed metrics table has the renamed header and the same rows, each cell under its column's new name. |
| `Tables.PadColumns` | merge_no_api.py:96-98 | Padding makes every listed name a column. Existing columns keep their place and cells. Every added column is a listed name the table lacked, and it is null in every row. |
| `Merge.NormaliseMetrics` | merge_no_api.py:86-98 | After the rename and padding, all five optional metric columns are present. Nothing else is added, the renamed header comes first, and the row count is unchanged. |
| `Merge.NormaliseMetricsKeeps` | merge_no_api.py:86-98 | Every existing metrics cell survives normalisation unchanged, under its column's new name. |
| `Merge.NormaliseMetricsPads` | merge_no_api.py:96-98 | Every cell of a padded metric column is null. |
| `Tables.Select` | merge_no_api.py:101 | `df[cols]` has exactly the named columns, in order, with each row's cells in them unchanged. |
| `Tables.SelectAll` | merge_no_api.py:109-110 | Selecting every column of a table, in any order, keeps the rows as they are. |
| `Merge.MetricsRight` | merge_no_api.py:101 | The right side of the metrics join has exactly the six selected columns. Each cell equals the normalised metrics cell. |
| `Join.LeftJoin` | merge_no_api.py:101-102 | The left join's columns are the left columns followed by the right columns. When both keys share a name, one key column is kept. The result is well formed and has at least one row per left row. |
| `Join.LeftJoinUniqueKey` | merge_no_api.py:101-102 | With unique right keys there is exactly one output row per left row, in order. Each is the left row unchanged, extended with the added cells of the right row with its key, or with nulls when there is none. |
| `Join.LeftJoinMatched` | merge_no_api.py:101-102 | With unique right keys, a left row whose key equals a right row's key carries that row's cell in every added column. |
| `Join.LeftJoinUnmatched` | merge_no_api.py:101-102 | With unique right keys, a left row whose key matches no right row is null in every added column. |
| `Merge.WithChannel` | merge_no_api.py:78-79 | With a channel column of its own the opportunities table is used as it is. Otherwise the map's `account_name` and `channel_id` follow the opportunity columns, with `account_name` dropped only when the account column is itself named `account_name`, and `channel_id` becomes the channel column. The result is well formed and has at least one row per opportunity. |
| `Merge.WithChannelKeeps` | merge_no_api.py:78 | With unique account names in the map, the map join keeps one row per opportunity and leaves its cells unchanged. |
| `Merge.WithChannelMatched` | merge_no_api.py:78-79 | With unique account names in the map, an opportunity whose account cell equals a map row's `account_name` gets that row's `channel_id`. |
| `Merge.WithChannelUnmatched` | merge_no_api.py:78-79 | With unique account names in the map, an opportunity whose account cell matches no map row gets a null `channel_id`. |
| `Merge.Joined` | merge_no_api.py:101-102 | The metrics join adds the selected metrics columns after the opportunity columns, and `channel_id` only when the channel column has another name. |
| `Merge.RunColumns` | merge_no_api.py:96-110 | The output names no column twice. It keeps every opportunity column and the channel column, always has all five optional metric columns, and adds nothing but map and metrics columns. |
| `Merge.RunKeepsOpportunities` | merge_no_api.py:101-102 | With unique map account names and unique metrics channel ids, the output has exactly one row per opportunity, in order, each with its own cells unchanged. |
| `Merge.RunEnrichesMatched` | merge_no_api.py:101-102 | Under the same uniqueness, an opportunity whose channel id matches a metrics row carries that row's value in each optional metric column. |
| `Merge.RunEnrichesUnmatched` | merge_no_api.py:101-102 | Under the same uniqueness, an opportunity whose channel id matches no metrics row is null in each optional metric column. |
| `Merge.Run` | merge_no_api.py:104-110 | The output columns are the joined columns reordered with the preferred list for the chosen channel column. The rows are the joined rows, unchanged. |
| `Merge.PreferredDistinct` | merge_no_api.py:105-108 | Whichever channel candidate was chosen, the preferred list names no column twice. |
| `Merge.Merge` | merge_no_api.py:58-110 | The merge fails exactly when a header check of the plan fails, with that check's message. On success the output names no column twice and has every opportunity column, the channel column and all five optional metric columns. |
| `Merge.MergeOutcome` | merge_no_api.py:59-93 | The outcome in terms of the three input headers and the `--metrics-cols` text. Each check that ends the program, in the program's order, yields its own message. The merge succeeds exactly when a channel column or a usable map is found, every pair text has a colon, and the renamed metrics header has `channel_id`. |
| `Merge.MergeKeepsOpportunities` | merge_no_api.py:101-102 | With unique account names in the map (when it is used) and unique channel ids in the normalised metrics, a successful merge has exactly one row per opportunity, in order, each with its own cells unchanged. |
| `ColumnOrder.Reorder` | merge_no_api.py:109 | The reorder keeps exactly the joined table's columns. With no repeats in either list it repeats none and keeps their number, so it is a permutation. |
| `ColumnOrder.ReorderOrder` | merge_no_api.py:105-109 | The present preferred columns come first, in the preferred order. The other columns follow in their original relative order. |
| `ColumnOrder.ReorderIdempotent` | merge_no_api.py:109 | Reordering an already reordered column list changes nothing. |
| `Seqs.Keep` | merge_no_api.py:109 | The first comprehension keeps exactly the preferred names that are columns, and repeats none when the preferred list repeats none. |
| `Seqs.Drop` | merge_no_api.py:109 | The second comprehension keeps exactly the columns that are not preferred, and repeats none when the columns repeat none. |
| `Seqs.KeepOrder` | merge_no_api.py:109 | The first comprehension keeps the order of the preferred list. |
| `Seqs.DropOrder` | merge_no_api.py:109 | The second comprehension keeps the order of the joined columns. |

## Left out

- `streamlit_app.py`: it is upload and download widgets around an engine function it imports, `merge_data`. `merge_data` does not exist in `merge_no_api.py`, and `streamlit_app.py` is not part of this model.
- CSV reading and writing (`pd.read_csv`, `to_csv`), `argparse` and the final `print`: these are I/O. The tables and the `--metrics-cols` text are parameters.
- `--map` given as an empty string: `if not args.map` treats it as no map. The model's map is an `Option<Table>` that is already read.
- Cell types: pandas' dtype coercion and the difference between NaN and `None` are not modelled. A cell is an optional string.
- Null join keys: cells compare as values, so a null key matches a null key, as pandas' merge does.
- Duplicate CSV headers are not modelled: every table has distinct column names (`Tables.WellFormed`).
- `Merge.Merge`: it requires that no name clash occurs (`Merge.ClashFree`). pandas would rename a clashing pair of join columns with `_x`/`_y` suffixes, and a rename sending two metrics columns to one name would yield duplicate columns. Neither is modelled.
- `Join.LeftJoin`: in general it promises only at least one output row per left row. Row multiplication under duplicate keys is modelled but not characterised further.
- `Merge.MergeKeepsOpportunities` and `Merge.RunKeepsOpportunities`: the one-row-per-opportunity property is proved only under unique account names in the map and unique channel ids in the metrics. With duplicates the program itself repeats opportunity rows, so it does not keep every opportunity exactly once.
- `Merge.WithChannelMatched` and `Merge.WithChannelUnmatched`: stated only with unique account names in the map. With duplicates the map join repeats the opportunity once per matching map row, and the row index no longer identifies it.
- Provenance (which column served as the channel column, whether the map was used) is not returned by this script. In the model it is the `Plan`'s `ChannelSource`.

=== FILE: colmap.dfy ===
/** `parse_colmap`: the `--metrics-cols` argument `expected:source,expected:source`
    read into a dict from the header the program expects to the header the metrics
    export actually uses, and the inverted dict the metrics table is renamed with. */
module ColMap {
  import opened Wrappers
  import opened Seqs
  import opened Text

  /** One `expected:source` pair. */
  datatype Pair = Pair(expected: string, source: string)

  /** A Python dict from expected name to source header. `order` lists its keys in
      iteration order: a key keeps the place of its first insertion even when a later
      assignment replaces its value. */
  datatype Dict = Dict(order: seq<string>, entries: map<string, string>)

  predicate IsDict(d: Dict) {
    Distinct(d.order) && ToSet(d.order) == d.entries.Keys
  }

  const EmptyDict := Dict([], map[])

  /** `d[k] = v` */
  function Put(d: Dict, k: string, v: string): (r: Dict)
    requires IsDict(d)
    ensures IsDict(r)
    ensures r.entries == d.entries[k := v]
    ensures r.order == if k in d.entries then d.order else d.order + [k]
  {
    if k in d.entries then Dict(d.order, d.entries[k := v])
    else
      assert Distinct(d.order + [k]) by {
        assert forall i :: 0 <= i < |d.order| ==> (d.order + [k])[i] == d.order[i];
      }
      Dict(d.order + [k], d.entries[k := v])
  }

  function ExpectedNames(ps: seq<Pair>): (names: seq<string>)
    ensures |names| == |ps|
    ensures forall i :: 0 <= i < |ps| ==> names[i] == ps[i].expected
  {
    seq(|ps|, i requires 0 <= i < |ps| => ps[i].expected)
  }

  /** The dict built by assigning the pairs one after the other,
      `for p in ps: d[p.expected] = p.source`. */
  function FromPairs(ps: seq<Pair>): (d: Dict)
    ensures IsDict(d)
  {
    if ps == [] then EmptyDict
    else Put(FromPairs(ps[..|ps| - 1]), ps[|ps| - 1].expected, ps[|ps| - 1].source)
  }

  /** Index of the last pair that names `k`. */
  function LastIndex(ps: seq<Pair>, k: string): (i: nat)
    requires k in ExpectedNames(ps)
    ensures i < |ps| && ps[i].expected == k
    ensures forall j :: i < j < |ps| ==> ps[j].expected != k
  {
    var init := ps[..|ps| - 1];
    if ps[|ps| - 1].expected == k then |ps| - 1
    else
      assert ExpectedNames(ps) == ExpectedNames(init) + [ps[|ps| - 1].expected];
      LastIndex(init, k)
  }

  lemma ExpectedNamesSnoc(ps: seq<Pair>)
    requires ps != []
    ensures ExpectedNames(ps) == ExpectedNames(ps[..|ps| - 1]) + [ps[|ps| - 1].expected]
  {
  }

  /** A name other than the last pair's has its last pair among the earlier ones. */
  lemma LastIndexInit(ps: seq<Pair>, k: string)
    requires ps != [] && k in ExpectedNames(ps) && k != ps[|ps| - 1].expected
    ensures k in ExpectedNames(ps[..|ps| - 1])
    ensures LastIndex(ps, k) == LastIndex(ps[..|ps| - 1], k)
  {
    ExpectedNamesSnoc(ps);
  }

  /** The keys of the dict are the expected names of the pairs, and each holds the
      source header of the LAST pair that names it. */
  lemma {:induction false} FromPairsEntries(ps: seq<Pair>)
    ensures FromPairs(ps).entries.Keys == ToSet(ExpectedNames(ps))
    ensures forall k :: k in FromPairs(ps).entries ==> FromPairs(ps).entries[k] == ps[LastIndex(ps, k)].source
  {
    if ps != [] {
      var init := ps[..|ps| - 1];
      var last := ps[|ps| - 1];
      var d0 := FromPairs(init);
      var d := FromPairs(ps);
      FromPairsEntries(init);
      ExpectedNamesSnoc(ps);
      assert d.entries == d0.entries[last.expected := last.source];
      assert ToSet(ExpectedNames(ps)) == ToSet(ExpectedNames(init)) + {last.expected};
      forall k | k in d.entries
        ensures d.entries[k] == ps[LastIndex(ps, k)].source
      {
        if k != last.expected {
          LastIndexInit(ps, k);
        }
      }
    }
  }

  /** The dict iterates its keys in the order in which the names first occur. */
  lemma {:induction false} FromPairsOrder(ps: seq<Pair>)
    ensures SortedBy(FromPairs(ps).order, ExpectedNames(ps))
  {
    if ps != [] {
      var init := ps[..|ps| - 1];
      var last := ps[|ps| - 1];
      var d0 := FromPairs(init);
      FromPairsOrder(init);
      FromPairsEntries(init);
      ExpectedNamesSnoc(ps);
      SortedBySnoc(d0.order, ExpectedNames(init), last.expected);
    }
  }

  /** `{v: k for k, v in d.items()}`, the rename map from source header to
      expected name. */
  function Invert(d: Dict): (inv: map<string, string>)
    requires IsDict(d)
    ensures inv.Keys == d.entries.Values
  {
    InvertItems(d.order, d.entries)
  }

  function InvertItems(keys: seq<string>, entries: map<string, string>): (inv: map<string, string>)
    requires forall k :: k in keys ==> k in entries
    ensures inv.Keys == set k | k in keys :: entries[k]
  {
    if keys == [] then map[]
    else
      var init := keys[..|keys| - 1];
      var last := keys[|keys| - 1];
      assert keys == init + [last];
      InvertItems(init, entries)[entries[last] := last]
  }

  /** Index, in iteration order, of the last key whose source header is `s`. */
  function LastKeyFor(keys: seq<string>, entries: map<string, string>, s: string): (i: nat)
    requires forall k :: k in keys ==> k in entries
    requires exists k :: k in keys && entries[k] == s
    ensures i < |keys| && entries[keys[i]] == s
    ensures forall j :: i < j < |keys| ==> entries[keys[j]] != s
  {
    var init := keys[..|keys| - 1];
    if entries[keys[|keys| - 1]] == s then |keys| - 1
    else
      var k :| k in keys && entries[k] == s;
      assert k in init by { assert keys == init + [keys[|keys| - 1]]; }
      LastKeyFor(init, entries, s)
  }

  /** When several expected names share one source header, the rename map sends
      that header to the one iterated last (the later dict entry overwrites). */
  lemma {:induction false} InvertLastWins(keys: seq<string>, entries: map<string, string>, s: string)
    requires forall k :: k in keys ==> k in entries
    requires s in InvertItems(keys, entries)
    ensures exists k :: k in keys && entries[k] == s
    ensures InvertItems(keys, entries)[s] == keys[LastKeyFor(keys, entries, s)]
  {
    var init := keys[..|keys| - 1];
    var last := keys[|keys| - 1];
    assert keys == init + [last];
    if entries[last] != s {
      InvertLastWins(init, entries, s);
    }
  }

  /** The rename map on one header: a header that is the source of some expected
      name becomes the expected name iterated last among those naming it; any
      other header is not a key of the map. */
  lemma InvertSpec(d: Dict, s: string)
    requires IsDict(d)
    ensures s in Invert(d) <==> exists k :: k in d.entries && d.entries[k] == s
    ensures s in Invert(d) ==> Invert(d)[s] == d.order[LastKeyFor(d.order, d.entries, s)]
  {
    if s in Invert(d) {
      InvertLastWins(d.order, d.entries, s);
    }
  }

  /** The message of the `SystemExit` raised for a pair without a colon. */
  function BadPairMessage(pair: string): string {
    "Bad --metrics-cols pair: " + pair + ". Use old:new"
  }

  /** `[p.strip() for p in pieces]` */
  function StripAll(pieces: seq<string>): (r: seq<string>)
    ensures |r| == |pieces|
    ensures forall i :: 0 <= i < |pieces| ==> r[i] == Strip(pieces[i])
  {
    seq(|pieces|, i requires 0 <= i < |pieces| => Strip(pieces[i]))
  }

  /** The non-empty strings, in order: the filter of
      `[p.strip() for p in pieces if p.strip()]`. It keeps exactly the non-empty
      strings. */
  function NonEmpty(strs: seq<string>): (r: seq<string>)
    ensures |r| <= |strs|
    ensures forall i :: 0 <= i < |r| ==> r[i] != "" && r[i] in strs
    ensures forall i :: 0 <= i < |strs| && strs[i] != "" ==> strs[i] in r
  {
    if strs == [] then []
    else
      var rest := NonEmpty(strs[1..]);
      assert forall i :: 1 <= i < |strs| ==> strs[i] == strs[1..][i - 1];
      if strs[0] != "" then [strs[0]] + rest else rest
  }

  /** Filtering a concatenation filters each part: what is kept from an earlier
      part comes before what is kept from a later one. */
  lemma {:induction false} NonEmptyConcat(a: seq<string>, b: seq<string>)
    ensures NonEmpty(a + b) == NonEmpty(a) + NonEmpty(b)
  {
    if a == [] {
      assert a + b == b;
    } else {
      assert (a + b)[1..] == a[1..] + b;
      NonEmptyConcat(a[1..], b);
    }
  }

  /** Two non-empty strings keep their relative order in the filter. */
  lemma NonEmptyOrder(strs: seq<string>, i: nat, j: nat)
    requires i < j < |strs| && strs[i] != "" && strs[j] != ""
    ensures exists p, q :: 0 <= p < q < |NonEmpty(strs)| && NonEmpty(strs)[p] == strs[i] && NonEmpty(strs)[q] == strs[j]
  {
    var a := strs[..j];
    var b := strs[j..];
    assert strs == a + b;
    NonEmptyConcat(a, b);
    assert a[i] == strs[i];
    var p :| 0 <= p < |NonEmpty(a)| && NonEmpty(a)[p] == strs[i];
    assert NonEmpty(b) == [strs[j]] + NonEmpty(b[1..]);
    var q := |NonEmpty(a)|;
    assert NonEmpty(strs)[p] == strs[i] && NonEmpty(strs)[q] == strs[j];
  }

  lemma {:induction false} NonEmptyOfBlanks(strs: seq<string>)
    requires forall i :: 0 <= i < |strs| ==> strs[i] == ""
    ensures NonEmpty(strs) == []
  {
    if strs != [] {
      NonEmptyOfBlanks(strs[1..]);
    }
  }

  /** The pair texts of a `--metrics-cols` argument, in argument order: every
      comma-separated fragment that is not blank, stripped. */
  function PairTexts(arg: string): (r: seq<string>)
    ensures forall i :: 0 <= i < |r| ==> r[i] != ""
    ensures forall j :: 0 <= j < |Split(arg, ',')| && Strip(Split(arg, ',')[j]) != "" ==>
      Strip(Split(arg, ',')[j]) in r
    ensures forall i :: 0 <= i < |r| ==> exists j :: 0 <= j < |Split(arg, ',')| && r[i] == Strip(Split(arg, ',')[j])
  {
    NonEmpty(StripAll(Split(arg, ',')))
  }

  /** A single fragment gives its strip as the one pair text, or none when blank. */
  lemma PairTextsOne(s: string)
    requires ',' !in s
    ensures PairTexts(s) == if Strip(s) == "" then [] else [Strip(s)]
  {
    assert Split(s, ',') == [s];
    assert StripAll([s]) == [Strip(s)];
    assert NonEmpty([Strip(s)][1..]) == [];
  }

  /** The pair texts of `a,b` are those of `a` followed by those of `b`. With
      `PairTextsOne` this fixes the pair texts exactly: the non-blank fragments,
      stripped, once each, in argument order. */
  lemma PairTextsComma(a: string, b: string)
    ensures PairTexts(a + [','] + b) == PairTexts(a) + PairTexts(b)
  {
    var x := Split(a, ',');
    var y := Split(b, ',');
    SplitAt(a, b, ',');
    StripAllConcat(x, y);
    NonEmptyConcat(StripAll(x), StripAll(y));
    assert PairTexts(a + [','] + b) == NonEmpty(StripAll(x + y));
  }

  lemma StripAllConcat(x: seq<string>, y: seq<string>)
    ensures StripAll(x + y) == StripAll(x) + StripAll(y)
  {
    MapConcat(Strip, x, y, StripAll(x), StripAll(y), StripAll(x + y));
  }

  /** A list mapped element by element: mapping a concatenation concatenates the
      mapped parts. */
  lemma MapConcat<A, B>(f: A -> B, x: seq<A>, y: seq<A>, fx: seq<B>, fy: seq<B>, fxy: seq<B>)
    requires |fx| == |x| && forall i :: 0 <= i < |x| ==> fx[i] == f(x[i])
    requires |fy| == |y| && forall i :: 0 <= i < |y| ==> fy[i] == f(y[i])
    requires |fxy| == |x + y| && forall i :: 0 <= i < |x + y| ==> fxy[i] == f((x + y)[i])
    ensures fxy == fx + fy
  {
    assert forall i :: |x| <= i < |x + y| ==> (x + y)[i] == y[i - |x|];
  }

  /** Two non-blank fragments appear among the pair texts in argument order. */
  lemma PairTextsOrder(arg: string, i: nat, j: nat)
    requires i < j < |Split(arg, ',')|
    requires Strip(Split(arg, ',')[i]) != "" && Strip(Split(arg, ',')[j]) != ""
    ensures exists p, q :: (0 <= p < q < |PairTexts(arg)|
      && PairTexts(arg)[p] == Strip(Split(arg, ',')[i]) && PairTexts(arg)[q] == Strip(Split(arg, ',')[j]))
  {
    var stripped := StripAll(Split(arg, ','));
    var texts := NonEmpty(stripped);
    assert texts == PairTexts(arg);
    NonEmptyOrder(stripped, i, j);
    var p, q :| 0 <= p < q < |texts| && texts[p] == stripped[i] && texts[q] == stripped[j];
    assert PairTexts(arg)[p] == Strip(Split(arg, ',')[i]);
  }

  /** Every pair text is non-empty, free of commas and already stripped. */
  lemma PairTextsShape(arg: string, i: nat)
    requires i < |PairTexts(arg)|
    ensures PairTexts(arg)[i] != "" && ',' !in PairTexts(arg)[i]
    ensures Strip(PairTexts(arg)[i]) == PairTexts(arg)[i]
  {
    var pieces := Split(arg, ',');
    var text := PairTexts(arg)[i];
    assert text in NonEmpty(StripAll(pieces));
    var j :| 0 <= j < |pieces| && StripAll(pieces)[j] == text;
    StripIdempotent(pieces[j]);
    if ',' in text {
      StripKeepsChars(pieces[j], ',');
    }
  }

  /** A pair text cut at its FIRST colon, both sides stripped:
      `new, old = pair.split(":", 1)` then `new.strip()`, `old.strip()`. */
  function PairOf(text: string): Pair
    requires ':' in text
  {
    var i := IndexOf(text, ':');
    Pair(Strip(text[..i]), Strip(text[i + 1..]))
  }

  /** A source header may itself contain colons: only the first colon of a pair
      separates the expected name from the source header. */
  lemma ColonInSource(expected: string, source: string)
    requires ':' !in expected
    ensures PairOf(expected + ":" + source) == Pair(Strip(expected), Strip(source))
  {
    var text := expected + ":" + source;
    assert text == expected + [':'] + source;
    IndexOfAfter(expected, ':', source);
    assert text[..|expected|] == expected;
    assert text[|expected| + 1..] == source;
  }

  /** One pair: an error naming the pair when it has no colon. */
  function ParsePair(text: string): (r: Result<Pair>)
    ensures r.Err? <==> ':' !in text
    ensures r.Err? ==> r.error == BadPairMessage(text)
    ensures r.Ok? ==> r.value == PairOf(text)
  {
    match SplitOnce(text, ':')
    case None => Err(BadPairMessage(text))
    case Some((before, after)) =>
      IndexOfAfter(before, ':', after);
      assert text[..|before|] == before && text[|before| + 1..] == after;
      Ok(Pair(Strip(before), Strip(after)))
  }

  predicate AllHaveColon(texts: seq<string>) {
    forall i :: 0 <= i < |texts| ==> ':' in texts[i]
  }

  /** Index of the first pair text without a colon. */
  function FirstBad(texts: seq<string>): (i: nat)
    requires !AllHaveColon(texts)
    ensures i < |texts| && ':' !in texts[i]
    ensures forall j :: 0 <= j < i ==> ':' in texts[j]
  {
    if ':' !in texts[0] then 0
    else
      assert !AllHaveColon(texts[1..]) by {
        var i :| 0 <= i < |texts| && ':' !in texts[i];
        assert texts[1..][i - 1] == texts[i];
      }
      1 + FirstBad(texts[1..])
  }

  /** The colon check over a non-empty list is the check of its head and of its tail. */
  lemma AllHaveColonCons(texts: seq<string>)
    requires texts != []
    ensures AllHaveColon(texts) <==> ':' in texts[0] && AllHaveColon(texts[1..])
  {
    assert forall i :: 1 <= i < |texts| ==> texts[i] == texts[1..][i - 1];
  }

  /** When the head has a colon, the first pair without one is the tail's first. */
  lemma FirstBadCons(texts: seq<string>)
    requires texts != [] && ':' in texts[0] && !AllHaveColon(texts[1..])
    ensures !AllHaveColon(texts)
    ensures texts[FirstBad(texts)] == texts[1..][FirstBad(texts[1..])]
  {
    AllHaveColonCons(texts);
  }

  /** All pairs in order, stopping at the first one without a colon. */
  function ParsePairs(texts: seq<string>): (r: Result<seq<Pair>>)
    ensures r.Ok? <==> AllHaveColon(texts)
    ensures r.Ok? ==> |r.value| == |texts| && forall i :: 0 <= i < |texts| ==> r.value[i] == PairOf(texts[i])
    ensures r.Err? ==> r.error == BadPairMessage(texts[FirstBad(texts)])
  {
    if texts == [] then Ok([])
    else
      var first := ParsePair(texts[0]);
      if first.Err? then
        assert FirstBad(texts) == 0;
        Err(first.error)
      else
        var rest := ParsePairs(texts[1..]);
        if rest.Err? then
          FirstBadCons(texts);
          Err(rest.error)
        else
          AllHaveColonCons(texts);
          assert |rest.value| == |texts| - 1;
          MapCons(PairOf, texts, first.value, rest.value);
          Ok([first.value] + rest.value)
  }

  /** Applying `f` to the head of a list and to every element of its tail is
      applying it to every element of the list. */
  lemma MapCons<A, B>(f: A --> B, xs: seq<A>, y: B, rest: seq<B>)
    requires xs != [] && f.requires(xs[0]) && y == f(xs[0])
    requires |rest| == |xs| - 1 && forall i :: 0 <= i < |rest| ==> f.requires(xs[1..][i]) && rest[i] == f(xs[1..][i])
    ensures forall i :: 0 <= i < |xs| ==> f.requires(xs[i]) && ([y] + rest)[i] == f(xs[i])
  {
    assert forall i :: 1 <= i < |xs| ==> xs[i] == xs[1..][i - 1] && ([y] + rest)[i] == rest[i - 1];
  }

  /** `parse_colmap(arg)`: an error naming the first pair without a colon, or the
      dict of the pairs assigned in order. */
  function ParseColmap(arg: string): (r: Result<Dict>)
    ensures r.Ok? <==> AllHaveColon(PairTexts(arg))
    ensures r.Ok? ==> IsDict(r.value)
    ensures r.Err? ==> r.error == BadPairMessage(PairTexts(arg)[FirstBad(PairTexts(arg))])
  {
    if arg == "" then
      assert Split(arg, ',') == [""];
      assert Strip("") == "";
      Ok(EmptyDict)
    else
      var pairs :- ParsePairs(PairTexts(arg));
      Ok(FromPairs(pairs))
  }

  /** An argument made only of whitespace and commas (the empty string included)
      parses to the empty dict, without error. */
  lemma BlankColmap(arg: string)
    requires forall i :: 0 <= i < |Split(arg, ',')| ==> AllSpace(Split(arg, ',')[i])
    ensures ParseColmap(arg) == Ok(EmptyDict)
  {
    var pieces := Split(arg, ',');
    forall i | 0 <= i < |pieces|
      ensures StripAll(pieces)[i] == ""
    {
      assert IsStripAt(pieces[i], "", 0);
      StripIsUnique(pieces[i], "");
    }
    NonEmptyOfBlanks(StripAll(pieces));
  }

  /** The pairs of an argument whose pair texts all have a colon, in order. */
  function PairsOf(arg: string): (ps: seq<Pair>)
    requires AllHaveColon(PairTexts(arg))
    ensures |ps| == |PairTexts(arg)|
  {
    var texts := PairTexts(arg);
    seq(|texts|, i requires 0 <= i < |texts| => PairOf(texts[i]))
  }

  /** On success the result is the dict of the parsed pairs assigned in order. */
  lemma ColmapIsDictOfPairs(arg: string)
    requires ParseColmap(arg).Ok?
    ensures AllHaveColon(PairTexts(arg))
    ensures ParseColmap(arg).value == FromPairs(PairsOf(arg))
  {
    var texts := PairTexts(arg);
    if arg == "" {
      assert Split(arg, ',') == [""];
      assert Strip("") == "";
      assert texts == [];
    } else {
      assert ParsePairs(texts).value == PairsOf(arg);
    }
  }

  /** On success the dict holds exactly the expected names of the pairs, each
      mapped to the source header of the LAST pair naming it. */
  lemma ColmapLastPairWins(arg: string, d: Dict)
    requires ParseColmap(arg) == Ok(d)
    ensures AllHaveColon(PairTexts(arg))
    ensures d.entries.Keys == ToSet(ExpectedNames(PairsOf(arg)))
    ensures forall k :: k in d.entries ==> d.entries[k] == PairsOf(arg)[LastIndex(PairsOf(arg), k)].source
  {
    ColmapIsDictOfPairs(arg);
    FromPairsEntries(PairsOf(arg));
  }

  /** On success the dict iterates the expected names in the order of their first
      pair; this is the order in which the inverted rename map is built. */
  lemma ColmapOrder(arg: string, d: Dict)
    requires ParseColmap(arg) == Ok(d)
    ensures AllHaveColon(PairTexts(arg))
    ensures forall k :: k in d.order ==> k in ExpectedNames(PairsOf(arg))
    ensures forall i, j :: 0 <= i < j < |d.order| ==>
      Pos(ExpectedNames(PairsOf(arg)), d.order[i]) < Pos(ExpectedNames(PairsOf(arg)), d.order[j])
  {
    ColmapIsDictOfPairs(arg);
    FromPairsOrder(PairsOf(arg));
  }
}

=== FILE: join.dfy ===
/** `left.merge(right, left_on=leftKey, right_on=rightKey, how="left")`: every left
    row, in order, once for each right row whose key cell equals its own (in the
    right table's order), or once with nulls when there is none. */
module Join {
  import opened Wrappers
  import opened Seqs
  import opened Tables

  /** The right-hand columns the join adds after the left ones: all of them, except
      the right key when both keys have the same name (one key column is kept). */
  function Added(rightColumns: seq<string>, leftKey: string, rightKey: string): (r: seq<string>)
    ensures Distinct(rightColumns) ==> Distinct(r)
    ensures forall c :: c in r <==> c in rightColumns && (leftKey == rightKey ==> c != rightKey)
  {
    if leftKey == rightKey then Drop(rightColumns, [rightKey]) else rightColumns
  }

  /** Both tables are well formed, the keys are columns of their tables, and no
      added column clashes with a left column (pandas would rename such a pair
      with `_x`/`_y` suffixes, which this model leaves out). */
  predicate Joinable(left: Table, right: Table, leftKey: string, rightKey: string) {
    && WellFormed(left)
    && WellFormed(right)
    && leftKey in left.columns
    && rightKey in right.columns
    && forall c :: c in Added(right.columns, leftKey, rightKey) ==> c !in left.columns
  }

  /** The rows whose `key` cell is `v`, in order. Cells compare as values, so a null
      key matches a null key, as pandas does. */
  function Matches(rows: seq<Row>, key: string, v: Cell): (r: seq<Row>)
    requires forall i :: 0 <= i < |rows| ==> key in rows[i]
    ensures |r| <= |rows|
    ensures forall i :: 0 <= i < |r| ==> r[i] in rows && key in r[i] && r[i][key] == v
  {
    if rows == [] then []
    else
      var rest := Matches(rows[1..], key, v);
      if rows[0][key] == v then [rows[0]] + rest else rest
  }

  /** One output row per match: the left row extended with the match's added cells. */
  function Attach(l: Row, ms: seq<Row>, added: set<string>): (r: seq<Row>)
    ensures |r| == |ms|
    ensures forall i :: 0 <= i < |ms| ==> r[i] == l + Restrict(ms[i], added)
  {
    seq(|ms|, i requires 0 <= i < |ms| => l + Restrict(ms[i], added))
  }

  /** The output rows of one left row. */
  function JoinRow(l: Row, right: seq<Row>, leftKey: string, rightKey: string, added: seq<string>): (r: seq<Row>)
    requires leftKey in l
    requires forall i :: 0 <= i < |right| ==> rightKey in right[i]
    ensures |r| >= 1
  {
    var ms := Matches(right, rightKey, l[leftKey]);
    if ms == [] then [l + NullRow(added)] else Attach(l, ms, ToSet(added))
  }

  /** The output rows of all left rows, in left order. */
  function JoinRows(ls: seq<Row>, right: seq<Row>, leftKey: string, rightKey: string, added: seq<string>): (r: seq<Row>)
    requires forall i :: 0 <= i < |ls| ==> leftKey in ls[i]
    requires forall i :: 0 <= i < |right| ==> rightKey in right[i]
    ensures |r| >= |ls|
  {
    if ls == [] then []
    else JoinRow(ls[0], right, leftKey, rightKey, added) + JoinRows(ls[1..], right, leftKey, rightKey, added)
  }

  /** The left join. */
  function LeftJoin(left: Table, right: Table, leftKey: string, rightKey: string): (r: Table)
    requires Joinable(left, right, leftKey, rightKey)
    ensures WellFormed(r)
    ensures r.columns == left.columns + Added(right.columns, leftKey, rightKey)
    ensures |r.rows| >= |left.rows|
  {
    var added := Added(right.columns, leftKey, rightKey);
    var rows := JoinRows(left.rows, right.rows, leftKey, rightKey, added);
    DistinctConcat(left.columns, added);
    JoinRowsShape(left, right, leftKey, rightKey, left.rows);
    Table(left.columns + added, rows)
  }

  /** Every output row has exactly the output columns. */
  lemma {:induction false} JoinRowsShape(left: Table, right: Table, leftKey: string, rightKey: string, ls: seq<Row>)
    requires Joinable(left, right, leftKey, rightKey)
    requires forall i :: 0 <= i < |ls| ==> ls[i].Keys == ToSet(left.columns)
    requires forall i :: 0 <= i < |ls| ==> leftKey in ls[i]
    ensures forall i :: 0 <= i < |JoinRows(ls, right.rows, leftKey, rightKey, Added(right.columns, leftKey, rightKey))| ==>
      JoinRows(ls, right.rows, leftKey, rightKey, Added(right.columns, leftKey, rightKey))[i].Keys
        == ToSet(left.columns + Added(right.columns, leftKey, rightKey))
  {
    var added := Added(right.columns, leftKey, rightKey);
    var all := ToSet(left.columns + added);
    assert all == ToSet(left.columns) + ToSet(added);
    if ls != [] {
      JoinRowsShape(left, right, leftKey, rightKey, ls[1..]);
      var l := ls[0];
      var ms := Matches(right.rows, rightKey, l[leftKey]);
      var first := JoinRow(l, right.rows, leftKey, rightKey, added);
      forall i | 0 <= i < |first| ensures first[i].Keys == all {
        if ms != [] {
          assert ms[i] in right.rows;
          assert ms[i].Keys == ToSet(right.columns);
          assert ToSet(right.columns) * ToSet(added) == ToSet(added);
        }
      }
    }
  }

  /** No two rows share a key cell. */
  predicate UniqueKey(rows: seq<Row>, key: string)
    requires forall i :: 0 <= i < |rows| ==> key in rows[i]
  {
    forall i, j :: 0 <= i < j < |rows| ==> rows[i][key] != rows[j][key]
  }

  /** The first row whose `key` cell is `v`, if any. */
  function Lookup(rows: seq<Row>, key: string, v: Cell): (r: Option<Row>)
    requires forall i :: 0 <= i < |rows| ==> key in rows[i]
    ensures r.None? <==> forall i :: 0 <= i < |rows| ==> rows[i][key] != v
    ensures r.Some? ==> r.value in rows && r.value[key] == v
  {
    if rows == [] then None
    else if rows[0][key] == v then Some(rows[0])
    else
      var r := Lookup(rows[1..], key, v);
      assert forall i :: 1 <= i < |rows| ==> rows[i] == rows[1..][i - 1];
      r
  }

  /** With unique keys, looking up a row's key finds that row. */
  lemma LookupUnique(rows: seq<Row>, key: string, j: nat)
    requires forall i :: 0 <= i < |rows| ==> key in rows[i]
    requires UniqueKey(rows, key)
    requires j < |rows|
    ensures Lookup(rows, key, rows[j][key]) == Some(rows[j])
  {
    var found := Lookup(rows, key, rows[j][key]);
    var idx :| 0 <= idx < |rows| && rows[idx] == found.value;
    assert idx == j;
  }

  /** The cells a left row with key cell `v` receives in the added columns: those of
      the right row with that key, or nulls when there is none. */
  function Enrichment(right: seq<Row>, rightKey: string, v: Cell, added: seq<string>): Row
    requires forall i :: 0 <= i < |right| ==> rightKey in right[i]
  {
    match Lookup(right, rightKey, v)
    case Some(m) => Restrict(m, ToSet(added))
    case None => NullRow(added)
  }

  /** With unique right keys there is at most one match, and it is the lookup's. */
  lemma {:induction false} MatchesUnique(rows: seq<Row>, key: string, v: Cell)
    requires forall i :: 0 <= i < |rows| ==> key in rows[i]
    requires UniqueKey(rows, key)
    ensures Matches(rows, key, v) == if Lookup(rows, key, v).Some? then [Lookup(rows, key, v).value] else []
  {
    if rows != [] {
      assert UniqueKey(rows[1..], key) by {
        assert forall i :: 0 <= i < |rows[1..]| ==> rows[1..][i] == rows[i + 1];
      }
      MatchesUnique(rows[1..], key, v);
      if rows[0][key] == v {
        assert forall i :: 0 <= i < |rows[1..]| ==> rows[1..][i][key] != v by {
          assert forall i :: 0 <= i < |rows[1..]| ==> rows[1..][i] == rows[i + 1];
        }
      }
    }
  }

  /** With unique right keys a left row yields exactly one output row: itself
      extended with its enrichment. */
  lemma JoinRowUnique(l: Row, right: seq<Row>, leftKey: string, rightKey: string, added: seq<string>)
    requires leftKey in l
    requires forall i :: 0 <= i < |right| ==> rightKey in right[i]
    requires UniqueKey(right, rightKey)
    ensures JoinRow(l, right, leftKey, rightKey, added) == [l + Enrichment(right, rightKey, l[leftKey], added)]
  {
    MatchesUnique(right, rightKey, l[leftKey]);
  }

  lemma {:induction false} JoinRowsUnique(ls: seq<Row>, right: seq<Row>, leftKey: string, rightKey: string, added: seq<string>)
    requires forall i :: 0 <= i < |ls| ==> leftKey in ls[i]
    requires forall i :: 0 <= i < |right| ==> rightKey in right[i]
    requires UniqueKey(right, rightKey)
    ensures |JoinRows(ls, right, leftKey, rightKey, added)| == |ls|
    ensures forall i :: 0 <= i < |ls| ==>
      JoinRows(ls, right, leftKey, rightKey, added)[i] == ls[i] + Enrichment(right, rightKey, ls[i][leftKey], added)
  {
    if ls != [] {
      var rest := JoinRows(ls[1..], right, leftKey, rightKey, added);
      JoinRowsUnique(ls[1..], right, leftKey, rightKey, added);
      JoinRowUnique(ls[0], right, leftKey, rightKey, added);
      var x := ls[0] + Enrichment(right, rightKey, ls[0][leftKey], added);
      assert JoinRows(ls, right, leftKey, rightKey, added) == [x] + rest;
      forall i | 1 <= i < |ls|
        ensures ([x] + rest)[i] == ls[i] + Enrichment(right, rightKey, ls[i][leftKey], added)
      {
        assert ls[i] == ls[1..][i - 1];
      }
    }
  }

  /** The left join with unique right keys: one output row per left row, in the
      same order; each is the left row unchanged, extended with the added cells of
      the right row whose key equals its key, or with nulls when no right row does. */
  lemma LeftJoinUniqueKey(left: Table, right: Table, leftKey: string, rightKey: string)
    requires Joinable(left, right, leftKey, rightKey)
    requires UniqueKey(right.rows, rightKey)
    ensures |LeftJoin(left, right, leftKey, rightKey).rows| == |left.rows|
    ensures forall i :: 0 <= i < |left.rows| ==>
      LeftJoin(left, right, leftKey, rightKey).rows[i]
        == left.rows[i] + Enrichment(right.rows, rightKey, left.rows[i][leftKey], Added(right.columns, leftKey, rightKey))
    ensures forall i :: 0 <= i < |left.rows| ==>
      Restrict(LeftJoin(left, right, leftKey, rightKey).rows[i], ToSet(left.columns)) == left.rows[i]
  {
    var added := Added(right.columns, leftKey, rightKey);
    JoinRowsUnique(left.rows, right.rows, leftKey, rightKey, added);
    forall i | 0 <= i < |left.rows|
      ensures Restrict(LeftJoin(left, right, leftKey, rightKey).rows[i], ToSet(left.columns)) == left.rows[i]
    {
      var e := Enrichment(right.rows, rightKey, left.rows[i][leftKey], added);
      assert e.Keys <= ToSet(added);
      RestrictUpdate(left.rows[i], e);
    }
  }

  /** With unique right keys, a left row whose key equals a right row's key
      carries that right row's cells in every added column. */
  lemma LeftJoinMatched(left: Table, right: Table, leftKey: string, rightKey: string, i: nat, j: nat, c: string)
    requires Joinable(left, right, leftKey, rightKey)
    requires UniqueKey(right.rows, rightKey)
    requires i < |left.rows| && j < |right.rows|
    requires right.rows[j][rightKey] == left.rows[i][leftKey]
    requires c in Added(right.columns, leftKey, rightKey)
    ensures |LeftJoin(left, right, leftKey, rightKey).rows| == |left.rows|
    ensures c in LeftJoin(left, right, leftKey, rightKey).rows[i] && c in right.rows[j]
    ensures LeftJoin(left, right, leftKey, rightKey).rows[i][c] == right.rows[j][c]
  {
    var added := Added(right.columns, leftKey, rightKey);
    JoinRowsUnique(left.rows, right.rows, leftKey, rightKey, added);
    LookupUnique(right.rows, rightKey, j);
    assert LeftJoin(left, right, leftKey, rightKey).rows[i]
      == left.rows[i] + Restrict(right.rows[j], ToSet(added));
    assert c !in left.rows[i];
  }

  /** A left row whose key matches no right row is null in every added column. */
  lemma LeftJoinUnmatched(left: Table, right: Table, leftKey: string, rightKey: string, i: nat, c: string)
    requires Joinable(left, right, leftKey, rightKey)
    requires UniqueKey(right.rows, rightKey)
    requires i < |left.rows|
    requires forall j :: 0 <= j < |right.rows| ==> right.rows[j][rightKey] != left.rows[i][leftKey]
    requires c in Added(right.columns, leftKey, rightKey)
    ensures |LeftJoin(left, right, leftKey, rightKey).rows| == |left.rows|
    ensures c in LeftJoin(left, right, leftKey, rightKey).rows[i]
    ensures LeftJoin(left, right, leftKey, rightKey).rows[i][c] == None
  {
    var added := Added(right.columns, leftKey, rightKey);
    JoinRowsUnique(left.rows, right.rows, leftKey, rightKey, added);
    assert LeftJoin(left, right, leftKey, rightKey).rows[i] == left.rows[i] + NullRow(added);
    assert c !in left.rows[i];
  }
}

=== FILE: merge.dfy ===
/** The body of `main()` from the channel lookup to the final reorder, as a pure
    function of the three tables and the `--metrics-cols` argument. Every check
    that ends the program looks only at column names and the `--metrics-cols`
    text, never at rows, so it is made first, by `MakePlan`; `Run` then carries
    out the joins, renames and reorder. */
module Merge {
  import opened Wrappers
  import opened Seqs
  import opened Tables
  import opened ColMap
  import opened Join
  import opened ColumnOrder

  /** Opportunity columns that may hold the YouTube channel id, best first. */
  const ChannelCandidates: seq<string> :=
    ["Account.YouTube_Channel_ID__c", "YouTube_Channel_ID__c", "channel_id", "Channel_ID__c"]

  /** Opportunity columns that may hold the account name, best first. */
  const AccountCandidates: seq<string> := ["Account.Name", "account_name", "Account"]

  /** The channel map columns joined onto the opportunities. */
  const MapSelection: seq<string> := ["account_name", "channel_id"]

  /** The optional metric columns, added as all-null columns when missing. */
  const MetricColumns: seq<string> := ["views_30d", "audience_size", "category", "growth_30d_pct", "channel_name"]

  /** The metrics columns joined onto the opportunities. */
  const MetricsSelection: seq<string> :=
    ["channel_id", "channel_name", "views_30d", "audience_size", "category", "growth_30d_pct"]

  /** The columns moved to the front of the output, in this order, when present. */
  function Preferred(channelColumn: string): seq<string> {
    ["Account.Id", "Account.Name", "Id", "Name", "StageName", "Amount", "CloseDate", "Owner.Name",
     channelColumn, "channel_name", "views_30d", "audience_size", "category", "growth_30d_pct"]
  }

  const NoChannelMessage := "Opps CSV has no channel_id column. Provide --map channel_map.csv (account_name,channel_id)."
  const MapColumnsMessage := "channel_map.csv must include: account_name, channel_id"
  const NoAccountMessage := "Couldn't find Account.Name column in opps to join with channel_map."
  const NoMetricsKeyMessage := "Metrics CSV must include 'channel_id' (or map it via --metrics-cols)."

  /** Where the opportunities get their channel id from: one of their own columns,
      or the channel map joined on an account column. */
  datatype ChannelSource = Direct(column: string) | ViaMap(accountColumn: string)

  /** The outcome of all header checks: the channel source and the parsed
      `--metrics-cols` dict. */
  datatype Plan = Plan(channel: ChannelSource, colmap: Dict)

  /** `channel_col` once the channel source is settled. */
  function ChannelColumn(s: ChannelSource): string {
    match s
    case Direct(c) => c
    case ViaMap(_) => "channel_id"
  }

  /** The table passed as `--map`, if any, reduced to its column names. */
  function Header(t: Option<Table>): Option<seq<string>> {
    match t
    case None => None
    case Some(t) => Some(t.columns)
  }

  predicate MapHeaderOk(mapColumns: seq<string>) {
    "account_name" in mapColumns && "channel_id" in mapColumns
  }

  /** Finding the channel column, falling back to the channel map: a column of
      the opportunities when a channel candidate is present (the first one), else
      the map joined on the first account candidate, else the first failing check. */
  function ResolveChannel(opps: seq<string>, mapColumns: Option<seq<string>>): (r: Result<ChannelSource>)
    ensures !NoneIn(ChannelCandidates, opps) ==> r.Ok? && r.value.Direct?
    ensures r.Ok? && r.value.Direct? ==> FirstIn(ChannelCandidates, opps, r.value.column)
    ensures NoneIn(ChannelCandidates, opps) && mapColumns.None? ==> r == Err(NoChannelMessage)
    ensures NoneIn(ChannelCandidates, opps) && mapColumns.Some? && !MapHeaderOk(mapColumns.value) ==>
      r == Err(MapColumnsMessage)
    ensures (NoneIn(ChannelCandidates, opps) && mapColumns.Some? && MapHeaderOk(mapColumns.value)
             && NoneIn(AccountCandidates, opps)) ==> r == Err(NoAccountMessage)
    ensures r.Ok? && r.value.ViaMap? ==>
      && NoneIn(ChannelCandidates, opps)
      && mapColumns.Some? && MapHeaderOk(mapColumns.value)
      && FirstIn(AccountCandidates, opps, r.value.accountColumn)
    // and it fails only through one of the three map-fallback checks
    ensures r.Err? ==>
      && NoneIn(ChannelCandidates, opps)
      && (mapColumns.None? || !MapHeaderOk(mapColumns.value) || NoneIn(AccountCandidates, opps))
  {
    var channel := FirstPresent(ChannelCandidates, opps);
    FirstPresentIsFirst(ChannelCandidates, opps, if channel.Some? then channel.value else "");
    match channel
    case Some(c) => Ok(Direct(c))
    case None =>
      if mapColumns.None? then Err(NoChannelMessage)
      else if "account_name" !in mapColumns.value || "channel_id" !in mapColumns.value then Err(MapColumnsMessage)
      else
        var account := FirstPresent(AccountCandidates, opps);
        FirstPresentIsFirst(AccountCandidates, opps, if account.Some? then account.value else "");
        match account
        case None => Err(NoAccountMessage)
        case Some(a) => Ok(ViaMap(a))
  }

  /** The metrics column names after the rename, `if colmap:` guard included. */
  function RenamedHeader(d: Dict, cols: seq<string>): (r: seq<string>)
    requires IsDict(d)
    ensures |r| == |cols|
    ensures forall k :: 0 <= k < |cols| && cols[k] !in d.entries.Values ==> r[k] == cols[k]
  {
    if d.entries != map[] then RenameColumns(Invert(d), cols) else cols
  }

  /** Each metrics column takes the expected name whose source header it is
      (the one iterated last when several share it) and otherwise keeps its name;
      the `if colmap:` guard makes no difference. */
  lemma RenamedHeaderSpec(d: Dict, cols: seq<string>, k: nat)
    requires IsDict(d) && k < |cols|
    ensures |RenamedHeader(d, cols)| == |cols|
    ensures (exists e :: e in d.entries && d.entries[e] == cols[k]) ==>
      RenamedHeader(d, cols)[k] == d.order[LastKeyFor(d.order, d.entries, cols[k])]
    ensures (forall e :: e in d.entries ==> d.entries[e] != cols[k]) ==> RenamedHeader(d, cols)[k] == cols[k]
  {
    InvertSpec(d, cols[k]);
    if d.entries == map[] {
      assert Invert(d) == map[];
    }
  }

  /** When the dict names `channel_id`'s source header and no other expected
      name shares it, the renamed metrics table passes the `channel_id` check. */
  lemma ChannelIdViaColmap(d: Dict, cols: seq<string>, k: nat)
    requires IsDict(d) && k < |cols|
    requires "channel_id" in d.entries && d.entries["channel_id"] == cols[k]
    requires forall e :: e in d.entries && e != "channel_id" ==> d.entries[e] != cols[k]
    ensures "channel_id" in RenamedHeader(d, cols)
  {
    RenamedHeaderSpec(d, cols, k);
    var i := LastKeyFor(d.order, d.entries, cols[k]);
    assert d.order[i] in d.entries;
    assert RenamedHeader(d, cols)[k] == "channel_id";
  }

  /** All header checks of lines 59-93, in the order the program makes them:
      the channel column (or map fallback), then `parse_colmap`, then the renamed
      metrics header's `channel_id`. */
  function MakePlan(opps: seq<string>, mapColumns: Option<seq<string>>, metricsCols: string, metrics: seq<string>)
    : (r: Result<Plan>)
    ensures ResolveChannel(opps, mapColumns).Err? ==> r == Err(ResolveChannel(opps, mapColumns).error)
    ensures ResolveChannel(opps, mapColumns).Ok? && ParseColmap(metricsCols).Err? ==>
      r == Err(ParseColmap(metricsCols).error)
    ensures (ResolveChannel(opps, mapColumns).Ok? && ParseColmap(metricsCols).Ok?
             && "channel_id" !in RenamedHeader(ParseColmap(metricsCols).value, metrics)) ==>
      r == Err(NoMetricsKeyMessage)
    ensures r.Err? ==>
      || ResolveChannel(opps, mapColumns).Err?
      || ParseColmap(metricsCols).Err?
      || "channel_id" !in RenamedHeader(ParseColmap(metricsCols).value, metrics)
    ensures r.Ok? ==> Fits(r.value, opps, mapColumns, metrics)
    ensures r.Ok? ==> r.value == Plan(ResolveChannel(opps, mapColumns).value, ParseColmap(metricsCols).value)
  {
    var channel :- ResolveChannel(opps, mapColumns);
    var colmap :- ParseColmap(metricsCols);
    if "channel_id" !in RenamedHeader(colmap, metrics) then Err(NoMetricsKeyMessage)
    else Ok(Plan(channel, colmap))
  }

  /** What a successful plan guarantees about the three headers. */
  predicate Fits(p: Plan, opps: seq<string>, mapColumns: Option<seq<string>>, metrics: seq<string>) {
    && IsDict(p.colmap)
    && "channel_id" in RenamedHeader(p.colmap, metrics)
    && match p.channel
       case Direct(c) => c in opps && c in ChannelCandidates
       case ViaMap(a) => a in opps && mapColumns.Some? && MapHeaderOk(mapColumns.value)
  }

  /** The opportunity columns after the map join, if there is one. */
  function WithChannelHeader(s: ChannelSource, opps: seq<string>): seq<string> {
    match s
    case Direct(_) => opps
    case ViaMap(a) => opps + Added(MapSelection, a, "account_name")
  }

  /** Name clashes the model leaves out: the map join adds no column the
      opportunities already have, the rename sends no two metrics columns to one
      name, and the metrics join adds no column the opportunities already have. */
  predicate ClashFree(p: Plan, opps: seq<string>, metrics: seq<string>)
    requires IsDict(p.colmap)
  {
    && (p.channel.ViaMap? ==> forall c :: c in Added(MapSelection, p.channel.accountColumn, "account_name") ==> c !in opps)
    && Distinct(RenamedHeader(p.colmap, metrics))
    && forall c :: c in Added(MetricsSelection, ChannelColumn(p.channel), "channel_id") ==>
         c !in WithChannelHeader(p.channel, opps)
  }

  /** What running a plan on the tables needs: well-formed tables whose headers
      the plan was made from, free of the name clashes the model leaves out. */
  predicate Ready(p: Plan, opps: Table, cmap: Option<Table>, met: Table) {
    && WellFormed(opps) && WellFormed(met) && (cmap.Some? ==> WellFormed(cmap.value))
    && Fits(p, opps.columns, Header(cmap), met.columns)
    && ClashFree(p, opps.columns, met.columns)
  }

  /** Lines 65-79 on the rows: with no channel column of their own the
      opportunities are left-joined with the map's `account_name, channel_id` on
      the account column, and `channel_id` becomes the channel column. */
  function WithChannel(s: ChannelSource, opps: Table, cmap: Option<Table>): (r: Table)
    requires WellFormed(opps) && (cmap.Some? ==> WellFormed(cmap.value))
    requires s.Direct? ==> s.column in opps.columns
    requires s.ViaMap? ==>
      && s.accountColumn in opps.columns
      && cmap.Some? && MapHeaderOk(cmap.value.columns)
      && forall c :: c in Added(MapSelection, s.accountColumn, "account_name") ==> c !in opps.columns
    ensures WellFormed(r)
    ensures r.columns == WithChannelHeader(s, opps.columns)
    ensures ChannelColumn(s) in r.columns
    ensures |r.rows| >= |opps.rows|
    ensures s.Direct? ==> r == opps
  {
    match s
    case Direct(_) => opps
    case ViaMap(a) =>
      var m := Select(cmap.value, MapSelection);
      assert "channel_id" in Added(MapSelection, a, "account_name");
      LeftJoin(opps, m, a, "account_name")
  }

  /** Line 87 under the `if colmap:` guard of line 86: the metrics table renamed
      with the inverted dict. */
  function RenameMetrics(d: Dict, met: Table): (r: Table)
    requires IsDict(d) && WellFormed(met) && Distinct(RenamedHeader(d, met.columns))
    ensures WellFormed(r)
    ensures r.columns == RenamedHeader(d, met.columns)
    ensures |r.rows| == |met.rows|
    ensures forall i, k :: 0 <= i < |met.rows| && 0 <= k < |met.columns| ==>
      r.columns[k] in r.rows[i] && r.rows[i][r.columns[k]] == met.rows[i][met.columns[k]]
  {
    if d.entries != map[] then Rename(met, Invert(d)) else met
  }

  /** Lines 86-98: the metrics table renamed, then padded with an all-null column
      for each optional metric column it lacks. Every optional metric column is
      present afterwards, and nothing else is added. */
  function NormaliseMetrics(d: Dict, met: Table): (r: Table)
    requires IsDict(d) && WellFormed(met) && Distinct(RenamedHeader(d, met.columns))
    ensures WellFormed(r)
    ensures |r.rows| == |met.rows|
    ensures forall n :: n in MetricColumns ==> n in r.columns
    ensures forall c :: c in r.columns ==> c in RenamedHeader(d, met.columns) || c in MetricColumns
    ensures |r.columns| >= |met.columns| && r.columns[..|met.columns|] == RenamedHeader(d, met.columns)
  {
    PadColumns(RenameMetrics(d, met), MetricColumns)
  }

  /** Each existing metrics cell is kept, under its column's new name. */
  lemma NormaliseMetricsKeeps(d: Dict, met: Table, i: nat, k: nat)
    requires IsDict(d) && WellFormed(met) && Distinct(RenamedHeader(d, met.columns))
    requires i < |met.rows| && k < |met.columns|
    ensures RenamedHeader(d, met.columns)[k] in NormaliseMetrics(d, met).rows[i]
    ensures NormaliseMetrics(d, met).rows[i][RenamedHeader(d, met.columns)[k]] == met.rows[i][met.columns[k]]
  {
    var renamed := RenameMetrics(d, met);
    var r := NormaliseMetrics(d, met);
    var c := renamed.columns[k];
    assert c in Restrict(r.rows[i], ToSet(renamed.columns));
  }

  /** Each padded metrics cell is null. */
  lemma NormaliseMetricsPads(d: Dict, met: Table, i: nat, c: string)
    requires IsDict(d) && WellFormed(met) && Distinct(RenamedHeader(d, met.columns))
    requires i < |met.rows|
    requires c in NormaliseMetrics(d, met).columns && c !in RenamedHeader(d, met.columns)
    ensures NormaliseMetrics(d, met).rows[i][c] == None
  {
  }

  /** The right side of the metrics join: the selected columns of the
      normalised metrics table (line 101). */
  function MetricsRight(d: Dict, met: Table): (r: Table)
    requires IsDict(d) && WellFormed(met) && Distinct(RenamedHeader(d, met.columns))
    requires "channel_id" in RenamedHeader(d, met.columns)
    ensures WellFormed(r)
    ensures r.columns == MetricsSelection
    ensures |r.rows| == |met.rows|
    ensures forall i, c :: 0 <= i < |r.rows| && c in MetricsSelection ==>
      r.rows[i][c] == NormaliseMetrics(d, met).rows[i][c]
  {
    var metrics := NormaliseMetrics(d, met);
    assert "channel_id" in metrics.columns by {
      assert "channel_id" in metrics.columns[..|met.columns|];
    }
    SelectionCovered(metrics.columns);
    Select(metrics, MetricsSelection)
  }

  /** Without uniqueness the map join may repeat an opportunity; with unique
      account names in the map it keeps one row per opportunity, its cells
      unchanged. */
  lemma WithChannelKeeps(s: ChannelSource, opps: Table, cmap: Option<Table>)
    requires WellFormed(opps) && (cmap.Some? ==> WellFormed(cmap.value))
    requires s.Direct? ==> s.column in opps.columns
    requires s.ViaMap? ==>
      && s.accountColumn in opps.columns
      && cmap.Some? && MapHeaderOk(cmap.value.columns)
      && forall c :: c in Added(MapSelection, s.accountColumn, "account_name") ==> c !in opps.columns
    requires s.ViaMap? ==> UniqueKey(cmap.value.rows, "account_name")
    ensures |WithChannel(s, opps, cmap).rows| == |opps.rows|
    ensures forall i :: 0 <= i < |opps.rows| ==>
      Restrict(WithChannel(s, opps, cmap).rows[i], ToSet(opps.columns)) == opps.rows[i]
  {
    match s
    case Direct(_) =>
      forall i | 0 <= i < |opps.rows| ensures Restrict(opps.rows[i], ToSet(opps.columns)) == opps.rows[i] {
      }
    case ViaMap(a) =>
      var m := Select(cmap.value, MapSelection);
      assert "channel_id" in Added(MapSelection, a, "account_name");
      assert UniqueKey(m.rows, "account_name");
      LeftJoinUniqueKey(opps, m, a, "account_name");
  }

  /** Lines 78-79 with unique account names in the map: an opportunity whose
      account cell equals a map row's `account_name` receives that row's
      `channel_id`. */
  lemma WithChannelMatched(a: string, opps: Table, cmap: Option<Table>, i: nat, j: nat)
    requires WellFormed(opps) && cmap.Some? && WellFormed(cmap.value)
    requires a in opps.columns && MapHeaderOk(cmap.value.columns)
    requires forall c :: c in Added(MapSelection, a, "account_name") ==> c !in opps.columns
    requires UniqueKey(cmap.value.rows, "account_name")
    requires i < |opps.rows| && j < |cmap.value.rows|
    requires cmap.value.rows[j]["account_name"] == opps.rows[i][a]
    ensures |WithChannel(ViaMap(a), opps, cmap).rows| == |opps.rows|
    ensures "channel_id" in WithChannel(ViaMap(a), opps, cmap).rows[i]
    ensures WithChannel(ViaMap(a), opps, cmap).rows[i]["channel_id"] == cmap.value.rows[j]["channel_id"]
  {
    var m := Select(cmap.value, MapSelection);
    assert "channel_id" in Added(MapSelection, a, "account_name");
    assert UniqueKey(m.rows, "account_name");
    LeftJoinMatched(opps, m, a, "account_name", i, j, "channel_id");
  }

  /** Lines 78-79 with unique account names in the map: an opportunity whose
      account cell matches no map row gets a null `channel_id`. */
  lemma WithChannelUnmatched(a: string, opps: Table, cmap: Option<Table>, i: nat)
    requires WellFormed(opps) && cmap.Some? && WellFormed(cmap.value)
    requires a in opps.columns && MapHeaderOk(cmap.value.columns)
    requires forall c :: c in Added(MapSelection, a, "account_name") ==> c !in opps.columns
    requires UniqueKey(cmap.value.rows, "account_name")
    requires i < |opps.rows|
    requires forall j :: 0 <= j < |cmap.value.rows| ==> cmap.value.rows[j]["account_name"] != opps.rows[i][a]
    ensures |WithChannel(ViaMap(a), opps, cmap).rows| == |opps.rows|
    ensures "channel_id" in WithChannel(ViaMap(a), opps, cmap).rows[i]
    ensures WithChannel(ViaMap(a), opps, cmap).rows[i]["channel_id"] == None
  {
    var m := Select(cmap.value, MapSelection);
    assert "channel_id" in Added(MapSelection, a, "account_name");
    assert UniqueKey(m.rows, "account_name");
    LeftJoinUnmatched(opps, m, a, "account_name", i, "channel_id");
  }

  /** The opportunities (with their channel column) left-joined on it with the
      selected metrics columns, before the reorder. */
  function Joined(p: Plan, opps: Table, cmap: Option<Table>, met: Table): (r: Table)
    requires Ready(p, opps, cmap, met)
    ensures WellFormed(r)
    ensures r.columns == WithChannelHeader(p.channel, opps.columns)
                         + Added(MetricsSelection, ChannelColumn(p.channel), "channel_id")
    ensures |r.rows| >= |opps.rows|
  {
    var left := WithChannel(p.channel, opps, cmap);
    var right := MetricsRight(p.colmap, met);
    LeftJoin(left, right, ChannelColumn(p.channel), "channel_id")
  }

  /** The metrics columns selected for the join exist once `channel_id` is
      present and the optional columns are padded. */
  lemma SelectionCovered(cols: seq<string>)
    requires "channel_id" in cols
    requires forall n :: n in MetricColumns ==> n in cols
    ensures Distinct(MetricsSelection)
    ensures forall c :: c in MetricsSelection ==> c in cols
  {
  }

  /** Lines 58-110 once the plan is made: the joined table with its columns
      reordered, the preferred ones first. */
  function Run(p: Plan, opps: Table, cmap: Option<Table>, met: Table): (r: Table)
    requires Ready(p, opps, cmap, met)
    ensures WellFormed(r)
    ensures r.columns == Reorder(Preferred(ChannelColumn(p.channel)), Joined(p, opps, cmap, met).columns)
    ensures r.rows == Joined(p, opps, cmap, met).rows
  {
    var joined := Joined(p, opps, cmap, met);
    PreferredDistinct(ChannelColumn(p.channel));
    var cols := Reorder(Preferred(ChannelColumn(p.channel)), joined.columns);
    SelectAll(joined, cols);
    Select(joined, cols)
  }

  /** The preferred list names no column twice, whichever channel column the
      plan settled on. */
  lemma PreferredDistinct(channelColumn: string)
    requires channelColumn in ChannelCandidates
    ensures Distinct(Preferred(channelColumn))
  {
  }

  /** `main()`'s lines 58-110: the first failing header check's message, or the
      merged table. */
  function Merge(opps: Table, cmap: Option<Table>, met: Table, metricsCols: string): (r: Result<Table>)
    requires WellFormed(opps) && WellFormed(met) && (cmap.Some? ==> WellFormed(cmap.value))
    requires MakePlan(opps.columns, Header(cmap), metricsCols, met.columns).Ok? ==>
      ClashFree(MakePlan(opps.columns, Header(cmap), metricsCols, met.columns).value, opps.columns, met.columns)
    ensures r.Ok? <==> MakePlan(opps.columns, Header(cmap), metricsCols, met.columns).Ok?
    ensures r.Err? ==> r.error == MakePlan(opps.columns, Header(cmap), metricsCols, met.columns).error
    ensures r.Ok? ==> WellFormed(r.value)
    ensures r.Ok? ==> r.value == Run(MakePlan(opps.columns, Header(cmap), metricsCols, met.columns).value, opps, cmap, met)
    // the schema of a successful merge
    ensures r.Ok? ==> Distinct(r.value.columns)
    ensures r.Ok? ==> forall c :: c in opps.columns ==> c in r.value.columns
    ensures r.Ok? ==> ChannelColumn(MakePlan(opps.columns, Header(cmap), metricsCols, met.columns).value.channel) in r.value.columns
    ensures r.Ok? ==> forall n :: n in MetricColumns ==> n in r.value.columns
  {
    var p :- MakePlan(opps.columns, Header(cmap), metricsCols, met.columns);
    RunColumns(p, opps, cmap, met);
    Ok(Run(p, opps, cmap, met))
  }

  /** The optional metric columns the metrics join adds to the opportunities. */
  lemma MetricColumnsAdded(channelColumn: string, n: string)
    requires n in MetricColumns
    ensures n in Added(MetricsSelection, channelColumn, "channel_id")
  {
  }

  /** The metrics join is a left join of the two prepared tables. */
  lemma MetricsJoin(p: Plan, opps: Table, cmap: Option<Table>, met: Table)
    requires Ready(p, opps, cmap, met)
    ensures Joinable(WithChannel(p.channel, opps, cmap), MetricsRight(p.colmap, met), ChannelColumn(p.channel), "channel_id")
    ensures Joined(p, opps, cmap, met)
      == LeftJoin(WithChannel(p.channel, opps, cmap), MetricsRight(p.colmap, met), ChannelColumn(p.channel), "channel_id")
  {
  }

  /** Unique channel ids in the normalised metrics stay unique in the right side
      of the join. */
  lemma MetricsRightUnique(d: Dict, met: Table)
    requires IsDict(d) && WellFormed(met) && Distinct(RenamedHeader(d, met.columns))
    requires "channel_id" in RenamedHeader(d, met.columns)
    requires UniqueKey(NormaliseMetrics(d, met).rows, "channel_id")
    ensures UniqueKey(MetricsRight(d, met).rows, "channel_id")
  {
    var right := MetricsRight(d, met);
    var metrics := NormaliseMetrics(d, met);
    assert forall i :: 0 <= i < |right.rows| ==> right.rows[i]["channel_id"] == metrics.rows[i]["channel_id"];
  }

  /** The output columns: every opportunity column, the channel column and all
      five optional metric columns, each once; nothing but opportunity, map and
      metrics columns. */
  lemma RunColumns(p: Plan, opps: Table, cmap: Option<Table>, met: Table)
    requires Ready(p, opps, cmap, met)
    ensures Distinct(Run(p, opps, cmap, met).columns)
    ensures forall c :: c in opps.columns ==> c in Run(p, opps, cmap, met).columns
    ensures ChannelColumn(p.channel) in Run(p, opps, cmap, met).columns
    ensures forall n :: n in MetricColumns ==> n in Run(p, opps, cmap, met).columns
    ensures forall c :: c in Run(p, opps, cmap, met).columns ==>
      c in opps.columns || c in MapSelection || c in MetricsSelection
  {
    var left := WithChannel(p.channel, opps, cmap);
    var joined := Joined(p, opps, cmap, met);
    forall n | n in MetricColumns ensures n in joined.columns {
      MetricColumnsAdded(ChannelColumn(p.channel), n);
    }
  }

  /** With unique account names in the map (when it is used) and unique channel
      ids in the metrics, the output has one row per opportunity, in order, and
      each opportunity's own cells are unchanged. */
  lemma RunKeepsOpportunities(p: Plan, opps: Table, cmap: Option<Table>, met: Table)
    requires Ready(p, opps, cmap, met)
    requires p.channel.ViaMap? ==> UniqueKey(cmap.value.rows, "account_name")
    requires UniqueKey(NormaliseMetrics(p.colmap, met).rows, "channel_id")
    ensures |Run(p, opps, cmap, met).rows| == |opps.rows|
    ensures forall i :: 0 <= i < |opps.rows| ==> Restrict(Run(p, opps, cmap, met).rows[i], ToSet(opps.columns)) == opps.rows[i]
  {
    var left := WithChannel(p.channel, opps, cmap);
    WithChannelKeeps(p.channel, opps, cmap);
    var right := MetricsRight(p.colmap, met);
    var ch := ChannelColumn(p.channel);
    MetricsJoin(p, opps, cmap, met);
    MetricsRightUnique(p.colmap, met);
    var joined := LeftJoin(left, right, ch, "channel_id");
    LeftJoinUniqueKey(left, right, ch, "channel_id");
    forall i | 0 <= i < |opps.rows|
      ensures Restrict(joined.rows[i], ToSet(opps.columns)) == opps.rows[i]
    {
      RestrictTwice(joined.rows[i], ToSet(left.columns), ToSet(opps.columns));
    }
  }

  /** The join keys the plan uses are unique: account names in the map when the
      map is joined, and channel ids in the normalised metrics. */
  predicate UniqueKeys(p: Plan, opps: Table, cmap: Option<Table>, met: Table)
    requires Ready(p, opps, cmap, met)
  {
    && (p.channel.ViaMap? ==> UniqueKey(cmap.value.rows, "account_name"))
    && UniqueKey(NormaliseMetrics(p.colmap, met).rows, "channel_id")
  }

  /** The channel id an opportunity is matched on: its own channel cell, or the
      one the map join gave it. */
  function ChannelKey(p: Plan, opps: Table, cmap: Option<Table>, met: Table, i: nat): Cell
    requires Ready(p, opps, cmap, met) && i < |opps.rows|
  {
    WithChannel(p.channel, opps, cmap).rows[i][ChannelColumn(p.channel)]
  }

  /** A channel id absent from the normalised metrics is absent from the right
      side of the join. */
  lemma MetricsRightNoMatch(d: Dict, met: Table, v: Cell)
    requires IsDict(d) && WellFormed(met) && Distinct(RenamedHeader(d, met.columns))
    requires "channel_id" in RenamedHeader(d, met.columns)
    requires Lookup(NormaliseMetrics(d, met).rows, "channel_id", v).None?
    ensures forall j :: 0 <= j < |MetricsRight(d, met).rows| ==> MetricsRight(d, met).rows[j]["channel_id"] != v
  {
    assert "channel_id" in MetricsSelection;
  }

  /** The facts the enrichment lemmas build on: under unique keys the map join
      keeps the opportunity count, the metrics join is a left join of the prepared
      tables with a unique right key, and the output rows are its rows. */
  lemma RunIsMetricsJoin(p: Plan, opps: Table, cmap: Option<Table>, met: Table)
    requires Ready(p, opps, cmap, met)
    requires p.channel.ViaMap? ==> UniqueKey(cmap.value.rows, "account_name")
    requires UniqueKey(NormaliseMetrics(p.colmap, met).rows, "channel_id")
    ensures |WithChannel(p.channel, opps, cmap).rows| == |opps.rows|
    ensures Joinable(WithChannel(p.channel, opps, cmap), MetricsRight(p.colmap, met), ChannelColumn(p.channel), "channel_id")
    ensures UniqueKey(MetricsRight(p.colmap, met).rows, "channel_id")
    ensures Run(p, opps, cmap, met).rows
      == LeftJoin(WithChannel(p.channel, opps, cmap), MetricsRight(p.colmap, met), ChannelColumn(p.channel), "channel_id").rows
  {
    WithChannelKeeps(p.channel, opps, cmap);
    MetricsJoin(p, opps, cmap, met);
    MetricsRightUnique(p.colmap, met);
  }

  /** With unique keys, an opportunity whose channel id matches a metrics row
      carries that row's optional metric cells. */
  lemma RunEnrichesMatched(p: Plan, opps: Table, cmap: Option<Table>, met: Table, i: nat, j: nat, n: string)
    requires Ready(p, opps, cmap, met)
    requires p.channel.ViaMap? ==> UniqueKey(cmap.value.rows, "account_name")
    requires UniqueKey(NormaliseMetrics(p.colmap, met).rows, "channel_id")
    requires i < |opps.rows| && j < |met.rows| && n in MetricColumns
    requires NormaliseMetrics(p.colmap, met).rows[j]["channel_id"] == ChannelKey(p, opps, cmap, met, i)
    ensures |Run(p, opps, cmap, met).rows| == |opps.rows|
    ensures n in Run(p, opps, cmap, met).rows[i] && n in NormaliseMetrics(p.colmap, met).rows[j]
    ensures Run(p, opps, cmap, met).rows[i][n] == NormaliseMetrics(p.colmap, met).rows[j][n]
  {
    var left := WithChannel(p.channel, opps, cmap);
    var right := MetricsRight(p.colmap, met);
    var ch := ChannelColumn(p.channel);
    RunIsMetricsJoin(p, opps, cmap, met);
    MetricColumnsAdded(ch, n);
    assert "channel_id" in MetricsSelection && n in MetricsSelection;
    LeftJoinMatched(left, right, ch, "channel_id", i, j, n);
  }

  /** With unique keys, an opportunity whose channel id matches no metrics row
      is null in every optional metric column. */
  lemma RunEnrichesUnmatched(p: Plan, opps: Table, cmap: Option<Table>, met: Table, i: nat, n: string)
    requires Ready(p, opps, cmap, met)
    requires p.channel.ViaMap? ==> UniqueKey(cmap.value.rows, "account_name")
    requires UniqueKey(NormaliseMetrics(p.colmap, met).rows, "channel_id")
    requires i < |opps.rows| && n in MetricColumns
    requires Lookup(NormaliseMetrics(p.colmap, met).rows, "channel_id", ChannelKey(p, opps, cmap, met, i)).None?
    ensures |Run(p, opps, cmap, met).rows| == |opps.rows|
    ensures n in Run(p, opps, cmap, met).rows[i] && Run(p, opps, cmap, met).rows[i][n] == None
  {
    var left := WithChannel(p.channel, opps, cmap);
    var right := MetricsRight(p.colmap, met);
    var ch := ChannelColumn(p.channel);
    RunIsMetricsJoin(p, opps, cmap, met);
    MetricColumnsAdded(ch, n);
    MetricsRightNoMatch(p.colmap, met, left.rows[i][ch]);
    LeftJoinUnmatched(left, right, ch, "channel_id", i, n);
  }

  /** The channel checks of lines 59-79 pass: a channel candidate is a column, or
      the map fallback has a map with both columns and an account candidate. */
  predicate ChannelFound(opps: seq<string>, mapColumns: Option<seq<string>>) {
    || !NoneIn(ChannelCandidates, opps)
    || (mapColumns.Some? && MapHeaderOk(mapColumns.value) && !NoneIn(AccountCandidates, opps))
  }

  /** `main()`'s outcome in terms of its inputs: each check that ends the program,
      in order, with its message, and success exactly when every check passes. */
  lemma MergeOutcome(opps: Table, cmap: Option<Table>, met: Table, metricsCols: string)
    requires WellFormed(opps) && WellFormed(met) && (cmap.Some? ==> WellFormed(cmap.value))
    requires MakePlan(opps.columns, Header(cmap), metricsCols, met.columns).Ok? ==>
      ClashFree(MakePlan(opps.columns, Header(cmap), metricsCols, met.columns).value, opps.columns, met.columns)
    ensures NoneIn(ChannelCandidates, opps.columns) && cmap.None? ==>
      Merge(opps, cmap, met, metricsCols) == Err(NoChannelMessage)
    ensures NoneIn(ChannelCandidates, opps.columns) && cmap.Some? && !MapHeaderOk(cmap.value.columns) ==>
      Merge(opps, cmap, met, metricsCols) == Err(MapColumnsMessage)
    ensures (NoneIn(ChannelCandidates, opps.columns) && cmap.Some? && MapHeaderOk(cmap.value.columns)
             && NoneIn(AccountCandidates, opps.columns)) ==>
      Merge(opps, cmap, met, metricsCols) == Err(NoAccountMessage)
    ensures ChannelFound(opps.columns, Header(cmap)) && !AllHaveColon(PairTexts(metricsCols)) ==>
      Merge(opps, cmap, met, metricsCols)
        == Err(BadPairMessage(PairTexts(metricsCols)[FirstBad(PairTexts(metricsCols))]))
    ensures (ChannelFound(opps.columns, Header(cmap)) && AllHaveColon(PairTexts(metricsCols))
             && "channel_id" !in RenamedHeader(ParseColmap(metricsCols).value, met.columns)) ==>
      Merge(opps, cmap, met, metricsCols) == Err(NoMetricsKeyMessage)
    ensures Merge(opps, cmap, met, metricsCols).Ok? <==>
      && ChannelFound(opps.columns, Header(cmap))
      && AllHaveColon(PairTexts(metricsCols))
      && "channel_id" in RenamedHeader(ParseColmap(metricsCols).value, met.columns)
  {
  }

  /** With unique account names in the map (when the merge uses it) and unique
      channel ids in the metrics, a successful merge has one row per opportunity,
      in order, each with its own cells unchanged. */
  lemma MergeKeepsOpportunities(opps: Table, cmap: Option<Table>, met: Table, metricsCols: string)
    requires WellFormed(opps) && WellFormed(met) && (cmap.Some? ==> WellFormed(cmap.value))
    requires MakePlan(opps.columns, Header(cmap), metricsCols, met.columns).Ok? ==>
      ClashFree(MakePlan(opps.columns, Header(cmap), metricsCols, met.columns).value, opps.columns, met.columns)
    requires Merge(opps, cmap, met, metricsCols).Ok?
    requires UniqueKeys(MakePlan(opps.columns, Header(cmap), metricsCols, met.columns).value, opps, cmap, met)
    ensures |Merge(opps, cmap, met, metricsCols).value.rows| == |opps.rows|
    ensures forall i :: 0 <= i < |opps.rows| ==>
      Restrict(Merge(opps, cmap, met, metricsCols).value.rows[i], ToSet(opps.columns)) == opps.rows[i]
  {
    var p := MakePlan(opps.columns, Header(cmap), metricsCols, met.columns).value;
    RunKeepsOpportunities(p, opps, cmap, met);
  }
}

=== FILE: reorder.dfy ===
/** The final column reorder: the preferred columns that are present, in preferred
    order, then every other column in its existing order. */
module ColumnOrder {
  import opened Seqs

  /** `[c for c in preferred if c in cols] + [c for c in cols if c not in preferred]`:
      the same columns, and when neither list repeats a name, a permutation of
      `cols`, nothing dropped and nothing repeated. */
  function Reorder(preferred: seq<string>, cols: seq<string>): (r: seq<string>)
    ensures forall c :: c in r <==> c in cols
    ensures Distinct(preferred) && Distinct(cols) ==> Distinct(r) && |r| == |cols|
  {
    var front := Keep(preferred, cols);
    var back := Drop(cols, preferred);
    assert Distinct(preferred) && Distinct(cols) ==> Distinct(front + back) && |front + back| == |cols| by {
      if Distinct(preferred) && Distinct(cols) {
        DistinctConcat(front, back);
        DistinctCard(front);
        DistinctCard(back);
        DistinctCard(cols);
        assert ToSet(cols) == ToSet(front) + ToSet(back);
        assert ToSet(front) !! ToSet(back);
      }
    }
    front + back
  }

  /** The present preferred columns come first, in the preferred order, and the
      other columns follow in their existing order. */
  lemma ReorderOrder(preferred: seq<string>, cols: seq<string>)
    requires Distinct(preferred) && Distinct(cols)
    ensures forall i, j :: 0 <= i < j < |Reorder(preferred, cols)| && Reorder(preferred, cols)[j] in preferred ==>
      Reorder(preferred, cols)[i] in preferred
    ensures forall i, j :: 0 <= i < j < |Reorder(preferred, cols)|
                           && Reorder(preferred, cols)[i] in preferred && Reorder(preferred, cols)[j] in preferred ==>
      Pos(preferred, Reorder(preferred, cols)[i]) < Pos(preferred, Reorder(preferred, cols)[j])
    ensures forall i, j :: 0 <= i < j < |Reorder(preferred, cols)|
                           && Reorder(preferred, cols)[i] !in preferred && Reorder(preferred, cols)[j] !in preferred ==>
      Pos(cols, Reorder(preferred, cols)[i]) < Pos(cols, Reorder(preferred, cols)[j])
  {
    var front := Keep(preferred, cols);
    var back := Drop(cols, preferred);
    var r := Reorder(preferred, cols);
    assert r == front + back;
    KeepOrder(preferred, cols);
    DropOrder(cols, preferred);
    assert forall i :: 0 <= i < |front| ==> r[i] == front[i] && r[i] in preferred;
    assert forall i :: |front| <= i < |r| ==> r[i] == back[i - |front|] && r[i] !in preferred;
  }

  /** Keeping the elements that occur in a list depends only on which elements
      occur in it. */
  lemma {:induction false} KeepSameMembers(s: seq<string>, a: seq<string>, b: seq<string>)
    requires forall x :: x in a <==> x in b
    ensures Keep(s, a) == Keep(s, b)
  {
    if s != [] {
      KeepSameMembers(s[1..], a, b);
    }
  }

  lemma {:induction false} DropConcat(a: seq<string>, b: seq<string>, other: seq<string>)
    ensures Drop(a + b, other) == Drop(a, other) + Drop(b, other)
  {
    if a != [] {
      var head := if a[0] !in other then [a[0]] else [];
      assert (a + b)[0] == a[0];
      assert (a + b)[1..] == a[1..] + b;
      assert Drop(a + b, other) == head + Drop(a[1..] + b, other);
      assert Drop(a, other) == head + Drop(a[1..], other);
      DropConcat(a[1..], b, other);
      assert head + (Drop(a[1..], other) + Drop(b, other)) == (head + Drop(a[1..], other)) + Drop(b, other);
    } else {
      assert a + b == b;
    }
  }

  lemma {:induction false} DropNone(s: seq<string>, other: seq<string>)
    requires forall x :: x in s ==> x !in other
    ensures Drop(s, other) == s
  {
    if s != [] {
      DropNone(s[1..], other);
    }
  }

  lemma {:induction false} DropAll(s: seq<string>, other: seq<string>)
    requires forall x :: x in s ==> x in other
    ensures Drop(s, other) == []
  {
    if s != [] {
      DropAll(s[1..], other);
    }
  }

  /** Reordering an already reordered column list changes nothing. */
  lemma ReorderIdempotent(preferred: seq<string>, cols: seq<string>)
    requires Distinct(preferred) && Distinct(cols)
    ensures Reorder(preferred, Reorder(preferred, cols)) == Reorder(preferred, cols)
  {
    var r := Reorder(preferred, cols);
    var front := Keep(preferred, cols);
    var back := Drop(cols, preferred);
    assert r == front + back;
    KeepSameMembers(preferred, r, cols);
    DropConcat(front, back, preferred);
    DropNone(back, preferred);
    DropAll(front, preferred);
    assert Keep(preferred, r) == front;
    assert Drop(r, preferred) == back;
    assert Reorder(preferred, r) == Keep(preferred, r) + Drop(r, preferred);
  }
}

=== FILE: seqs.dfy ===
/** Facts about sequences used as ordered column lists. */
module Seqs {

  /** No element occurs twice. */
  predicate Distinct(s: seq<string>) {
    forall i, j :: 0 <= i < j < |s| ==> s[i] != s[j]
  }

  function ToSet(s: seq<string>): (r: set<string>)
    ensures forall x :: x in r <==> x in s
  {
    set x | x in s
  }

  /** Position of the first occurrence of `x` in `s`. */
  function Pos(s: seq<string>, x: string): (i: nat)
    requires x in s
    ensures i < |s| && s[i] == x
    ensures forall j :: 0 <= j < i ==> s[j] != x
  {
    if s[0] == x then 0 else 1 + Pos(s[1..], x)
  }

  /** The elements of `s` that occur in `other`, in the order of `s`
      (the comprehension `[c for c in s if c in other]`). */
  function Keep(s: seq<string>, other: seq<string>): (r: seq<string>)
    ensures forall x :: x in r <==> x in s && x in other
    ensures Distinct(s) ==> Distinct(r)
  {
    if s == [] then []
    else
      var rest := Keep(s[1..], other);
      assert Distinct(s) ==> s[0] !in rest && Distinct(s[1..]);
      if s[0] in other then [s[0]] + rest else rest
  }

  /** The elements of `s` that do not occur in `other`, in the order of `s`
      (the comprehension `[c for c in s if c not in other]`). */
  function Drop(s: seq<string>, other: seq<string>): (r: seq<string>)
    ensures forall x :: x in r <==> x in s && x !in other
    ensures Distinct(s) ==> Distinct(r)
  {
    if s == [] then []
    else
      var rest := Drop(s[1..], other);
      assert Distinct(s) ==> s[0] !in rest && Distinct(s[1..]);
      if s[0] !in other then [s[0]] + rest else rest
  }

  /** A sequence without repetitions has as many elements as its set. */
  lemma {:induction false} DistinctCard(s: seq<string>)
    requires Distinct(s)
    ensures |ToSet(s)| == |s|
  {
    if s != [] {
      DistinctCard(s[1..]);
      assert ToSet(s) == ToSet(s[1..]) + {s[0]};
      assert s[0] !in ToSet(s[1..]);
    }
  }

  /** Appending does not move the first occurrence of an element already present. */
  lemma PosAppend(s: seq<string>, y: string, x: string)
    requires x in s
    ensures Pos(s + [y], x) == Pos(s, x)
  {
    var i := Pos(s, x);
    assert (s + [y])[i] == x;
    assert forall j :: 0 <= j < i ==> (s + [y])[j] == s[j];
  }

  /** An element appended to a sequence without it sits at the end. */
  lemma PosAppendNew(s: seq<string>, y: string)
    requires y !in s
    ensures Pos(s + [y], y) == |s|
  {
    assert forall j :: 0 <= j < |s| ==> (s + [y])[j] == s[j];
  }

  /** Two sequences without repetitions and without common elements concatenate
      to a sequence without repetitions. */
  lemma DistinctConcat(a: seq<string>, b: seq<string>)
    requires Distinct(a) && Distinct(b)
    requires forall x :: x in b ==> x !in a
    ensures Distinct(a + b)
  {
    forall i, j | 0 <= i < j < |a + b|
      ensures (a + b)[i] != (a + b)[j]
    {
      if j < |a| {
        assert (a + b)[i] == a[i] && (a + b)[j] == a[j];
      } else if i >= |a| {
        assert (a + b)[i] == b[i - |a|] && (a + b)[j] == b[j - |a|];
      } else {
        assert (a + b)[i] == a[i] && (a + b)[j] == b[j - |a|];
        assert b[j - |a|] in b;
      }
    }
  }

  /** In a sequence without repetitions, an element of the tail is not the head
      and sits one place further than in the tail. */
  lemma PosTail(s: seq<string>, x: string)
    requires s != [] && Distinct(s) && x in s[1..]
    ensures x != s[0] && Pos(s, x) == 1 + Pos(s[1..], x)
  {
    var k :| 0 <= k < |s[1..]| && s[1..][k] == x;
    assert s[k + 1] == x;
  }

  lemma DistinctTail(s: seq<string>)
    requires s != [] && Distinct(s)
    ensures Distinct(s[1..])
  {
  }

  /** `Keep` preserves the order of `s`. */
  lemma {:induction false} KeepOrder(s: seq<string>, other: seq<string>)
    requires Distinct(s)
    ensures forall i, j :: 0 <= i < j < |Keep(s, other)| ==> Pos(s, Keep(s, other)[i]) < Pos(s, Keep(s, other)[j])
  {
    if s != [] {
      DistinctTail(s);
      KeepOrder(s[1..], other);
      var rest := Keep(s[1..], other);
      var r := Keep(s, other);
      forall i, j | 0 <= i < j < |r| ensures Pos(s, r[i]) < Pos(s, r[j]) {
        if s[0] in other {
          assert r == [s[0]] + rest;
          PosTail(s, rest[j - 1]);
          if i > 0 {
            PosTail(s, rest[i - 1]);
          }
        } else {
          PosTail(s, rest[i]);
          PosTail(s, rest[j]);
        }
      }
    }
  }

  /** `Drop` preserves the order of `s`. */
  lemma {:induction false} DropOrder(s: seq<string>, other: seq<string>)
    requires Distinct(s)
    ensures forall i, j :: 0 <= i < j < |Drop(s, other)| ==> Pos(s, Drop(s, other)[i]) < Pos(s, Drop(s, other)[j])
  {
    if s != [] {
      DistinctTail(s);
      DropOrder(s[1..], other);
      var rest := Drop(s[1..], other);
      var r := Drop(s, other);
      forall i, j | 0 <= i < j < |r| ensures Pos(s, r[i]) < Pos(s, r[j]) {
        if s[0] !in other {
          assert r == [s[0]] + rest;
          PosTail(s, rest[j - 1]);
          if i > 0 {
            PosTail(s, rest[i - 1]);
          }
        } else {
          PosTail(s, rest[i]);
          PosTail(s, rest[j]);
        }
      }
    }
  }

  /** `order` lists elements of `names` in the order of their first occurrence there. */
  predicate SortedBy(order: seq<string>, names: seq<string>) {
    && (forall k :: k in order ==> k in names)
    && forall i, j :: 0 <= i < j < |order| ==> Pos(names, order[i]) < Pos(names, order[j])
  }

  /** Appending a name to `names` keeps an order sorted by it, and a name new to
      `names` may be appended to the order as well. */
  lemma SortedBySnoc(order: seq<string>, names: seq<string>, x: string)
    requires SortedBy(order, names)
    ensures SortedBy(order, names + [x])
    ensures x !in names ==> SortedBy(order + [x], names + [x])
  {
    forall k | k in order ensures Pos(names + [x], k) == Pos(names, k) {
      PosAppend(names, x, k);
    }
    if x !in names {
      PosAppendNew(names, x);
      var o := order + [x];
      forall i, j | 0 <= i < j < |o| ensures Pos(names + [x], o[i]) < Pos(names + [x], o[j]) {
        if j < |order| {
          assert o[i] == order[i] && o[j] == order[j];
        } else {
          assert o[i] == order[i];
        }
      }
    }
  }
}

=== FILE: tables.dfy ===
/** The data frames the merge works on, and the column operations it applies to
    them: priority lookup of a column name, renaming, null padding and selection. */
module Tables {
  import opened Wrappers
  import opened Seqs

  /** A cell's content as read from the CSV export (dtype coercion is not modelled). */
  type Value = string

  /** `None` is pandas' missing value. */
  type Cell = Option<Value>

  /** A row maps each column name of its table to a cell. */
  type Row = map<string, Cell>

  /** A data frame: its column names in order, and its rows in order. */
  datatype Table = Table(columns: seq<string>, rows: seq<Row>)

  /** Column names are unique and every row has exactly the table's columns. */
  predicate WellFormed(t: Table) {
    && Distinct(t.columns)
    && forall i :: 0 <= i < |t.rows| ==> t.rows[i].Keys == ToSet(t.columns)
  }

  /** `row` cut down to the columns in `cols`. */
  function Restrict(row: Row, cols: set<string>): (r: Row)
    ensures r.Keys == row.Keys * cols
    ensures forall c :: c in r ==> r[c] == row[c]
  {
    map c | c in row && c in cols :: row[c]
  }

  /** Cutting `row + extra` down to the columns of `row` gives back `row` when
      `extra` has none of them. */
  lemma RestrictUpdate(row: Row, extra: Row)
    requires extra.Keys !! row.Keys
    ensures Restrict(row + extra, row.Keys) == row
  {
    var r := Restrict(row + extra, row.Keys);
    assert r.Keys == row.Keys;
    forall c | c in r ensures r[c] == row[c] {
      assert c !in extra;
    }
  }

  /** A row that is null in every column of `cols`. */
  function NullRow(cols: seq<string>): (r: Row)
    ensures r.Keys == ToSet(cols)
    ensures forall c :: c in r ==> r[c] == None
  {
    map c | c in cols :: None
  }

  /** The first candidate naming a column of the table, in the candidates' order:
      `for col in candidates: if col in columns: found = col; break`. */
  function FirstPresent(candidates: seq<string>, columns: seq<string>): (r: Option<string>)
    ensures r.None? <==> forall i :: 0 <= i < |candidates| ==> candidates[i] !in columns
    ensures r.Some? ==> r.value in columns && r.value in candidates
    ensures r.Some? ==> forall j :: 0 <= j < Pos(candidates, r.value) ==> candidates[j] !in columns
  {
    if candidates == [] then None
    else if candidates[0] in columns then Some(candidates[0])
    else
      var r := FirstPresent(candidates[1..], columns);
      assert forall i :: 1 <= i < |candidates| ==> candidates[i] == candidates[1..][i - 1];
      r
  }

  /** `df[c] = None` for every name of `names` the table lacks, in the order of
      `names`: each missing name becomes a new all-null column at the end. */
  function PadColumns(t: Table, names: seq<string>): (r: Table)
    requires WellFormed(t) && Distinct(names)
    ensures WellFormed(r)
    ensures forall n :: n in names ==> n in r.columns
    // existing columns keep their place and their cells ...
    ensures |r.columns| >= |t.columns| && r.columns[..|t.columns|] == t.columns
    ensures |r.rows| == |t.rows|
    ensures forall i :: 0 <= i < |r.rows| ==> Restrict(r.rows[i], ToSet(t.columns)) == t.rows[i]
    // ... and every added column is one of `names`, null in every row
    ensures forall c :: c in r.columns[|t.columns|..] ==> c in names && c !in t.columns
    ensures forall i, c :: 0 <= i < |r.rows| && c in r.rows[i] && c !in t.columns ==> r.rows[i][c] == None
  {
    var added := Drop(names, t.columns);
    var cols := t.columns + added;
    DistinctConcat(t.columns, added);
    assert ToSet(cols) == ToSet(t.columns) + ToSet(added);
    assert cols[..|t.columns|] == t.columns;
    assert cols[|t.columns|..] == added;
    Table(cols, seq(|t.rows|, i requires 0 <= i < |t.rows| => AddNulls(t.rows[i], added)))
  }

  /** The first candidate found is characterised without reference to the search:
      it is a candidate naming a column, and no earlier candidate names one. */
  predicate FirstIn(candidates: seq<string>, columns: seq<string>, c: string) {
    && c in candidates
    && c in columns
    && forall j :: 0 <= j < Pos(candidates, c) ==> candidates[j] !in columns
  }

  predicate NoneIn(candidates: seq<string>, columns: seq<string>) {
    forall i :: 0 <= i < |candidates| ==> candidates[i] !in columns
  }

  /** `FirstPresent` finds exactly the candidate `FirstIn` describes, and nothing
      exactly when no candidate is present. */
  lemma FirstPresentIsFirst(candidates: seq<string>, columns: seq<string>, c: string)
    ensures FirstPresent(candidates, columns) == Some(c) <==> FirstIn(candidates, columns, c)
    ensures FirstPresent(candidates, columns).None? <==> NoneIn(candidates, columns)
  {
    var r := FirstPresent(candidates, columns);
    if FirstIn(candidates, columns, c) {
      assert candidates[Pos(candidates, c)] in columns;
      assert r.Some?;
      assert candidates[Pos(candidates, r.value)] in columns;
      assert Pos(candidates, r.value) == Pos(candidates, c);
    }
  }

  /** `row` extended with a null cell in each column of `added`. */
  function AddNulls(row: Row, added: seq<string>): (r: Row)
    requires row.Keys !! ToSet(added)
    ensures r.Keys == row.Keys + ToSet(added)
    ensures Restrict(r, row.Keys) == row
    ensures forall c :: c in r && c !in row ==> r[c] == None
  {
    RestrictUpdate(row, NullRow(added));
    row + NullRow(added)
  }

  /** `rename(columns=ren)` applied to one column name. */
  function RenameColumn(ren: map<string, string>, c: string): string {
    if c in ren then ren[c] else c
  }

  function RenameColumns(ren: map<string, string>, cols: seq<string>): (r: seq<string>)
    ensures |r| == |cols|
    ensures forall k :: 0 <= k < |cols| ==> r[k] == RenameColumn(ren, cols[k])
  {
    seq(|cols|, k requires 0 <= k < |cols| => RenameColumn(ren, cols[k]))
  }

  /** Renaming keeps distinct names apart on the given keys. */
  predicate InjectiveOn(ren: map<string, string>, keys: set<string>) {
    forall a, b :: a in keys && b in keys && RenameColumn(ren, a) == RenameColumn(ren, b) ==> a == b
  }

  function RenameRow(ren: map<string, string>, row: Row): (r: Row)
    requires InjectiveOn(ren, row.Keys)
  {
    map c | c in row :: RenameColumn(ren, c) := row[c]
  }

  /** `df.rename(columns=ren)`: every column whose name is a key of `ren` takes the
      name `ren` maps it to; positions and cells stay where they were. */
  function Rename(t: Table, ren: map<string, string>): (r: Table)
    requires WellFormed(t) && Distinct(RenameColumns(ren, t.columns))
    ensures WellFormed(r)
    ensures r.columns == RenameColumns(ren, t.columns)
    ensures |r.rows| == |t.rows|
    ensures forall i, k :: 0 <= i < |t.rows| && 0 <= k < |t.columns| ==>
      r.columns[k] in r.rows[i] && r.rows[i][r.columns[k]] == t.rows[i][t.columns[k]]
  {
    var cols := RenameColumns(ren, t.columns);
    assert InjectiveOn(ren, ToSet(t.columns)) by {
      forall a, b | a in t.columns && b in t.columns && RenameColumn(ren, a) == RenameColumn(ren, b)
        ensures a == b
      {
        var ka := Pos(t.columns, a);
        var kb := Pos(t.columns, b);
        assert cols[ka] == cols[kb];
      }
    }
    var rows := seq(|t.rows|, i requires 0 <= i < |t.rows| => RenameRow(ren, t.rows[i]));
    assert forall i :: 0 <= i < |rows| ==> rows[i].Keys == ToSet(cols) by {
      forall i | 0 <= i < |rows|
        ensures rows[i].Keys == ToSet(cols)
      {
        forall c | c in ToSet(cols) ensures c in rows[i] {
          var k :| 0 <= k < |cols| && cols[k] == c;
          assert t.columns[k] in t.rows[i];
        }
      }
    }
    Table(cols, rows)
  }

  /** Renaming with an empty map changes nothing. */
  lemma RenameNothing(t: Table)
    requires WellFormed(t)
    ensures Distinct(RenameColumns(map[], t.columns))
    ensures Rename(t, map[]) == t
  {
    assert RenameColumns(map[], t.columns) == t.columns;
    var r := Rename(t, map[]);
    forall i | 0 <= i < |t.rows| ensures r.rows[i] == t.rows[i] {
      assert r.rows[i] == RenameRow(map[], t.rows[i]);
    }
  }

  /** `df[cols]`: the named columns, in the order given. */
  function Select(t: Table, cols: seq<string>): (r: Table)
    requires WellFormed(t) && Distinct(cols)
    requires forall c :: c in cols ==> c in t.columns
    ensures WellFormed(r)
    ensures r.columns == cols && |r.rows| == |t.rows|
    ensures forall i, c :: 0 <= i < |r.rows| && c in cols ==> r.rows[i][c] == t.rows[i][c]
  {
    Table(cols, seq(|t.rows|, i requires 0 <= i < |t.rows| => Restrict(t.rows[i], ToSet(cols))))
  }

  /** Selecting every column of a table, in any order, keeps its rows as they are. */
  lemma SelectAll(t: Table, cols: seq<string>)
    requires WellFormed(t) && Distinct(cols)
    requires forall c :: c in cols <==> c in t.columns
    ensures Select(t, cols).rows == t.rows
  {
    var r := Select(t, cols);
    forall i | 0 <= i < |t.rows| ensures r.rows[i] == t.rows[i] {
      assert ToSet(cols) == t.rows[i].Keys;
    }
  }

  /** Cutting a row down twice is cutting it down to the smaller set. */
  lemma RestrictTwice(row: Row, a: set<string>, b: set<string>)
    requires b <= a
    ensures Restrict(Restrict(row, a), b) == Restrict(row, b)
  {
  }
}

=== FILE: text.dfy ===
/** The three Python string operations `parse_colmap` relies on: `str.split(sep)`,
    `str.split(sep, 1)` and `str.strip()` with no argument. */
module Text {
  import opened Wrappers

  /** The characters for which Python's `str.isspace()` holds; `str.strip()` with no
      argument removes exactly these from both ends. */
  predicate IsSpace(c: char) {
    || ('\t' <= c <= '\r')
    || ('\U{1C}' <= c <= '\U{1F}')
    || c == ' '
    || c == '\U{85}'
    || c == '\U{A0}'
    || c == '\U{1680}'
    || ('\U{2000}' <= c <= '\U{200A}')
    || c == '\U{2028}'
    || c == '\U{2029}'
    || c == '\U{202F}'
    || c == '\U{205F}'
    || c == '\U{3000}'
  }

  predicate AllSpace(s: string) {
    forall i :: 0 <= i < |s| ==> IsSpace(s[i])
  }

  /** The characters of `s` from index `lo` up to, not including, `hi` are all
      whitespace. */
  predicate SpaceBetween(s: string, lo: nat, hi: nat)
    requires lo <= hi <= |s|
  {
    forall k :: lo <= k < hi ==> IsSpace(s[k])
  }

  /** `s` with its leading whitespace removed. */
  function TrimStart(s: string): (r: string)
    ensures |r| <= |s| && r == s[|s| - |r|..]
    ensures SpaceBetween(s, 0, |s| - |r|)
    ensures r == [] || !IsSpace(r[0])
  {
    if s != [] && IsSpace(s[0]) then
      var r := TrimStart(s[1..]);
      assert forall k :: 1 <= k < |s| ==> s[k] == s[1..][k - 1];
      r
    else s
  }

  /** `s` with its trailing whitespace removed. */
  function TrimEnd(s: string): (r: string)
    ensures |r| <= |s| && r == s[..|r|]
    ensures SpaceBetween(s, |r|, |s|)
    ensures r == [] || !IsSpace(r[|r| - 1])
  {
    if s != [] && IsSpace(s[|s| - 1]) then
      var r := TrimEnd(s[..|s| - 1]);
      assert forall k :: 0 <= k < |s| - 1 ==> s[k] == s[..|s| - 1][k];
      r
    else s
  }

  /** `r` is what is left of `s` once the whitespace at both ends is cut off:
      a slice of `s` bordered by whitespace only, that neither starts nor ends
      with whitespace. */
  ghost predicate IsStripOf(s: string, r: string) {
    exists i :: 0 <= i <= i + |r| <= |s| && IsStripAt(s, r, i)
  }

  ghost predicate IsStripAt(s: string, r: string, i: nat)
    requires i + |r| <= |s|
  {
    && s[i..i + |r|] == r
    && SpaceBetween(s, 0, i)
    && SpaceBetween(s, i + |r|, |s|)
    && (r == [] || (!IsSpace(r[0]) && !IsSpace(r[|r| - 1])))
  }

  /** Python's `s.strip()`. */
  function Strip(s: string): string {
    TrimEnd(TrimStart(s))
  }

  /** What `Strip` computes meets the description of `IsStripOf`. */
  lemma StripSpec(s: string)
    ensures IsStripOf(s, Strip(s))
  {
    var t := TrimStart(s);
    var r := TrimEnd(t);
    TrimsAreStrip(s, t, r);
  }

  /** A left trim followed by a right trim leaves a slice as `IsStripAt` describes. */
  lemma TrimsAreStrip(s: string, t: string, r: string)
    requires |t| <= |s| && t == s[|s| - |t|..] && SpaceBetween(s, 0, |s| - |t|)
    requires t == [] || !IsSpace(t[0])
    requires |r| <= |t| && r == t[..|r|] && SpaceBetween(t, |r|, |t|)
    requires r == [] || !IsSpace(r[|r| - 1])
    ensures IsStripAt(s, r, |s| - |t|)
  {
    var i := |s| - |t|;
    SuffixSlice(s, i, |r|);
    SpaceInSuffix(s, i, |r|, |t|);
    assert r != [] ==> r[0] == t[0];
  }

  lemma SuffixSlice(s: string, i: nat, n: nat)
    requires i + n <= |s|
    ensures s[i..][..n] == s[i..i + n]
  {
  }

  /** Whitespace in a suffix of `s` is whitespace of `s`, `i` places further on. */
  lemma SpaceInSuffix(s: string, i: nat, lo: nat, hi: nat)
    requires i <= |s| && lo <= hi <= |s| - i
    ensures SpaceBetween(s[i..], lo, hi) <==> SpaceBetween(s, i + lo, i + hi)
  {
    assert forall k :: i + lo <= k < i + hi ==> s[k] == s[i..][k - i];
  }

  /** Stripping only removes characters: every character of the result is one of `s`. */
  lemma StripKeepsChars(s: string, c: char)
    requires c in Strip(s)
    ensures c in s
  {
    var t := TrimStart(s);
    assert Strip(s) == TrimEnd(t);
    assert t == s[|s| - |t|..];
    var k :| 0 <= k < |Strip(s)| && Strip(s)[k] == c;
    assert t[k] == c;
  }

  /** Where the left trim stops: at the first character that is not whitespace. */
  lemma TrimStartAt(s: string, i: nat)
    requires i <= |s| && SpaceBetween(s, 0, i)
    requires i < |s| ==> !IsSpace(s[i])
    ensures TrimStart(s) == s[i..]
  {
    var r := TrimStart(s);
    var m := |s| - |r|;
    if m < |s| {
      assert r[0] == s[m];
    }
    assert m == i;
  }

  /** Where the right trim stops: after the last character that is not whitespace. */
  lemma TrimEndAt(t: string, n: nat)
    requires n <= |t| && SpaceBetween(t, n, |t|)
    requires n > 0 ==> !IsSpace(t[n - 1])
    ensures TrimEnd(t) == t[..n]
  {
    var r := TrimEnd(t);
    if |r| > 0 {
      assert r[|r| - 1] == t[|r| - 1];
    }
    assert |r| == n;
  }

  /** The strip of a string is unique: any slice meeting the description of
      `IsStripOf` is the one `Strip` computes. */
  lemma StripIsUnique(s: string, r: string)
    requires IsStripOf(s, r)
    ensures r == Strip(s)
  {
    var i :| 0 <= i <= i + |r| <= |s| && IsStripAt(s, r, i);
    if r == [] {
      StripOfBlank(s, i);
    } else {
      StripOfNonBlank(s, r, i);
    }
  }

  /** A string made only of whitespace strips to the empty string. */
  lemma StripOfBlank(s: string, i: nat)
    requires i <= |s| && IsStripAt(s, [], i)
    ensures Strip(s) == []
  {
    TrimStartAt(s, |s|);
  }

  /** A non-empty slice bordered by whitespace, neither starting nor ending with
      whitespace, is what `Strip` computes. */
  lemma StripOfNonBlank(s: string, r: string, i: nat)
    requires r != [] && i + |r| <= |s| && IsStripAt(s, r, i)
    ensures Strip(s) == r
  {
    StripAtSuffix(s, r, i);
    TrimStartAt(s, i);
    TrimEndAt(s[i..], |r|);
  }

  /** Seen from the suffix where it starts, a non-empty strip is a prefix followed
      by whitespace only. */
  lemma StripAtSuffix(s: string, r: string, i: nat)
    requires r != [] && i + |r| <= |s| && IsStripAt(s, r, i)
    ensures !IsSpace(s[i])
    ensures s[i..][..|r|] == r && SpaceBetween(s[i..], |r|, |s| - i)
    ensures !IsSpace(s[i..][|r| - 1])
  {
    SuffixSlice(s, i, |r|);
    SpaceInSuffix(s, i, |r|, |s| - i);
    assert s[i] == r[0];
    assert s[i..][|r| - 1] == r[|r| - 1];
  }

  /** Python's `str.strip()` is idempotent. */
  lemma StripIdempotent(s: string)
    ensures Strip(Strip(s)) == Strip(s)
  {
    var r := Strip(s);
    StripSpec(s);
    assert IsStripAt(r, r, 0);
    StripIsUnique(r, r);
  }

  /** Index of the first occurrence of `c` in `s`. */
  function IndexOf(s: string, c: char): (i: nat)
    requires c in s
    ensures i < |s| && s[i] == c
    ensures c !in s[..i]
  {
    if s[0] == c then 0 else 1 + IndexOf(s[1..], c)
  }

  /** The first separator of `a + [c] + b` is the one after `a` when `a` has none. */
  lemma {:induction false} IndexOfAfter(a: string, c: char, b: string)
    requires c !in a
    ensures IndexOf(a + [c] + b, c) == |a|
  {
    if a != [] {
      assert (a + [c] + b)[1..] == a[1..] + [c] + b;
      IndexOfAfter(a[1..], c, b);
    }
  }

  /** Python's `sep.join(parts)`. */
  function Join(parts: seq<string>, sep: char): string {
    if |parts| == 0 then ""
    else if |parts| == 1 then parts[0]
    else parts[0] + [sep] + Join(parts[1..], sep)
  }

  /** Joining two non-empty lists of pieces puts one separator between their joins. */
  lemma {:induction false} JoinConcat(a: seq<string>, b: seq<string>, sep: char)
    requires |a| >= 1 && |b| >= 1
    ensures Join(a + b, sep) == Join(a, sep) + [sep] + Join(b, sep)
  {
    if |a| > 1 {
      assert (a + b)[1..] == a[1..] + b;
      JoinConcat(a[1..], b, sep);
    }
  }

  /** Splitting at one separator: the pieces of the text before it, then the
      pieces of the text after it. */
  lemma SplitAt(a: string, b: string, sep: char)
    ensures Split(a + [sep] + b, sep) == Split(a, sep) + Split(b, sep)
  {
    var parts := Split(a, sep) + Split(b, sep);
    JoinConcat(Split(a, sep), Split(b, sep), sep);
    assert forall i :: 0 <= i < |parts| ==> sep !in parts[i] by {
      forall i | 0 <= i < |parts| ensures sep !in parts[i] {
        if i >= |Split(a, sep)| {
          assert parts[i] == Split(b, sep)[i - |Split(a, sep)|];
        }
      }
    }
    SplitJoin(parts, sep);
  }

  /** Python's `s.split(sep)` for a one-character separator: the pieces between
      separators, always at least one, empty pieces included. */
  function Split(s: string, sep: char): (parts: seq<string>)
    ensures |parts| >= 1
    ensures forall i :: 0 <= i < |parts| ==> sep !in parts[i]
    ensures Join(parts, sep) == s
    decreases |s|
  {
    if sep !in s then [s]
    else
      var i := IndexOf(s, sep);
      var rest := Split(s[i + 1..], sep);
      assert s == s[..i] + [sep] + s[i + 1..];
      [s[..i]] + rest
  }

  /** Splitting undoes joining: the pieces of `Split` are the only separator-free
      pieces that join back to the string. */
  lemma {:induction false} SplitJoin(parts: seq<string>, sep: char)
    requires |parts| >= 1
    requires forall i :: 0 <= i < |parts| ==> sep !in parts[i]
    ensures Split(Join(parts, sep), sep) == parts
  {
    if |parts| > 1 {
      var s := Join(parts, sep);
      var p := parts[0];
      assert s == p + [sep] + Join(parts[1..], sep);
      IndexOfAfter(p, sep, Join(parts[1..], sep));
      assert s[..|p|] == p;
      assert s[|p| + 1..] == Join(parts[1..], sep);
      SplitJoin(parts[1..], sep);
      assert Split(s, sep) == [p] + Split(s[|p| + 1..], sep);
      assert parts == [p] + parts[1..];
    }
  }

  /** Python's `s.split(sep, 1)` guarded by `sep in s`: the text before the first
      separator and everything after it, later separators included. */
  function SplitOnce(s: string, sep: char): (r: Option<(string, string)>)
    ensures r.None? <==> sep !in s
    ensures r.Some? ==> sep !in r.value.0 && s == r.value.0 + [sep] + r.value.1
  {
    if sep !in s then None
    else
      var i := IndexOf(s, sep);
      assert s == s[..i] + [sep] + s[i + 1..];
      Some((s[..i], s[i + 1..]))
  }
}

=== FILE: wrappers.dfy ===
/** Failure-compatible wrappers: a nullable value and the outcome of a step that can
    stop the program with a message (the source's `raise SystemExit(msg)`). */
module Wrappers {

  /** A value that may be absent; a table cell is `None` when it holds a null. */
  datatype Option<+T> = None | Some(value: T)

  /** Either a value or the message the program exits with. */
  datatype Result<+T> = Ok(value: T) | Err(error: string) {

    predicate IsFailure() {
      Err?
    }

    function PropagateFailure<U>(): Result<U>
      requires Err?
    {
      Err(error)
    }

    function Extract(): T
      requires Ok?
    {
      value
    }
  }
}
